=== FILE: README.md ===
# Sonnar medication scheduler — a Dafny model

Sonnar is a Kivy/KivyMD mobile app. A user registers a medicine with a start
time (`HH:MM`), a dose in grams, a course length in days and an interval in
hours. The app keeps the medicines in memory (`self.medicines`) and in a SQLite
table `medicamentos`, and a clock callback (`check_reminders`) raises a dialog
when a medicine's alert time comes round. The dialog has two answers: "taken"
(`marcar_tomado`) and "snooze five minutes" (`retrasar_notificacion`).

This project models the non-visual core of `MedicineApp` in `main.py`:

- `Text`: the Python string and integer primitives the core relies on.
  These are `str.strip()`, `int(s)`, `str(n)`, `f"{n:02d}"` and `s.split(sep)`.
- `TimeOfDay`: `datetime.strptime(s, "%H:%M")` and `strftime("%H:%M")` reduced
  to a minute of the day. Also covers `is_valid_time_format` and the five-minute
  snooze with its wrap past midnight.
- `Medication`: the medicine record, with every key the dictionaries carry.
- `Doses`: `calculate_doses`, `get_medication_progress` and
  `calculate_next_dose_time`.
- `Reminder`: one run of `check_reminders` over the list, and the two dialog
  answers as transitions of one record.
- `Store`: the `medicamentos` table as a sequence of rows with an
  AUTOINCREMENT counter, the unique index on `(name, time)`, and
  `insert_medicine_db`, `update_medicine_db` and `load_medicines_from_db`.
- `Engine`: the list and the table together. It covers start-up,
  `save_medicine`, and the dialog answers with the update that persists them.

Time is an input. The wall clock becomes a `now` parameter: a `Minute` (0–1439)
for `check_reminders` and a `Second` of the day for `get_medication_progress`.
The date is a `today` string.

Where the code behaves differently from what its comments, messages and tests suggest, the model follows the code:

- `save_medicine` checks only that the fields are non-empty, that the time is
  valid, and that the list does not already hold the pair. It does not check
  that days and hours are numbers. A non-numeric value makes `int()` raise
  inside `insert_medicine_db` (`InsertFailed(NotAnInteger)`); a value outside
  SQLite's signed 64-bit INTEGER makes the binding raise `OverflowError`
  (`InsertFailed(TooLarge)`). Either exception escapes `save_medicine` and the
  button callback uncaught: nothing is saved, no dialog is shown, and the form
  is not reset. The value `"0"` is accepted and gives a course of 0 doses.
- `check_reminders` compares the alert text with the clock's zero-padded
  `%H:%M`. strptime also accepts `"8:00"`, but a medicine saved that way
  never fires (`Reminder.UnpaddedTimeNeverDue`).
- After "taken" on an un-snoozed alert, the record's last notification equals
  its alert time, which equals its scheduled time. The record is never due
  again, so the daily reminder does not recur
  (`Reminder.TakenAtScheduledTimeSilences`, `Reminder.NotifiedAlertStaysSilent`).
  The model states this behaviour as the code has it.
- `get_medication_progress` reads `datetime.now()` three times. The model
  reads it once.
- Surfacing a reminder records `last_notification_time` in memory only. It
  reaches the table with the next answer's update, never on its own.
- When `int()` raises inside `update_medicine_db`, the record in memory has
  already changed. The model keeps that change and leaves the table as it was.

## Model

| member | source | states |
|---|---|---|
| Text.Strip | main.py:330-334 | The result is empty exactly when the text is all whitespace (so the form's emptiness test is "only whitespace"), it neither starts nor ends with whitespace, and a text without surrounding whitespace is unchanged. |
| Text.StripTrims | main.py:330-334 | `strip()` removes whitespace from the two ends and nothing else: the text is a whitespace prefix, the stripped text and a whitespace suffix. |
| Text.ParseInt | main.py:220-221 | `int(s)`: an optional sign then decimal digits, leading zeros allowed; anything else is the `ValueError` (`None`). Its read-back of `str()` is `Text.ParseShowRoundTrip`. |
| Text.ShowInt | main.py:138-139 | `str(n)`: a minus sign for negative numbers, then the digits without leading zeros; `Text.ParseShowRoundTrip` states that `int()` reads it back. |
| Text.Pad02 | main.py:276 | `f"{n:02d}"`: numbers 0–9 get a leading zero, everything else prints as `str(n)`; `Text.Pad02RoundTrip` and `Text.Pad02IsTwoDigits` state its meaning. |
| Text.ParseShowRoundTrip | main.py:138-139 | Reading back an integer that `str()` printed gives the same integer, negative ones included, which is what the INTEGER columns rely on when loaded back as text. |
| Text.Pad02RoundTrip | main.py:276 | `int(f"{n:02d}") == n` for every integer: zero padding never changes the value. |
| Text.Pad02IsTwoDigits | main.py:276 | For 0 ≤ n < 100, `f"{n:02d}"` is exactly the two decimal digits of n. |
| Text.Split | main.py:246-247 | `split(':')` gives at least one piece, no piece contains the separator, and joining the pieces with the separator gives back the text. |
| TimeOfDay.ParseTime | main.py:313 | strptime `%H:%M` reduced to a minute of the day: an hour field of one or two digits up to 23, a colon, a minute field of one or two digits up to 59, nothing else. `TimeOfDay.ParseTimeSound` and `TimeOfDay.ParseTimeComplete` state both directions. |
| TimeOfDay.IsValidTimeFormat | main.py:311-316 | `is_valid_time_format` is true exactly when strptime accepts the text (`TimeOfDay.ValidTimeFormatIff`). |
| TimeOfDay.FormatTime | main.py:854 | strftime `%H:%M` of a minute: five characters with the colon in the middle; `TimeOfDay.FormatParseRoundTrip` and `TimeOfDay.FormatTimeInjective` state what it means. |
| TimeOfDay.FormatParseRoundTrip | main.py:897-899 | A time written with strftime `%H:%M` is accepted by strptime and read back as the same minute of the day. |
| TimeOfDay.FormatTimeInjective | main.py:854 | Two different minutes never print as the same `%H:%M` text, so comparing the clock's text compares minutes. |
| TimeOfDay.ParseTimeSound | main.py:311-316 | Every text strptime accepts is an hour field (one digit, or two digits up to 23), a colon, and a minute field (one digit, or two digits up to 59) that spell the time it is read as. |
| TimeOfDay.ParseTimeComplete | main.py:311-316 | Every text in that form is accepted and read as the time it spells. |
| TimeOfDay.ValidTimeFormatIff | main.py:311-316 | `is_valid_time_format` holds exactly when the text spells some time of day. |
| TimeOfDay.CanonicalIffFiveChars | main.py:311-316 | A valid time text is strftime's writing of its value exactly when it has five characters, so `"8:00"` and `"08:5"` are accepted but never printed. |
| TimeOfDay.SnoozedAlert | main.py:896-899 | A snoozed alert is produced exactly when strptime accepts the old one; it has five characters and reads as the old time plus five minutes, modulo a day. |
| TimeOfDay.ValidTimeExamples | test/test_agregar.py:36-38 | `08:00`, `23:59` and `00:00` are valid. |
| TimeOfDay.OneDigitHourExample | test/test_agregar.py:39 | `8:00` is accepted and read as 08:00. |
| TimeOfDay.InvalidTimeExamples | test/test_agregar.py:40-43 | `25:00`, `08:60`, `08-30` and `abc` are rejected. |
| TimeOfDay.SnoozeWrapExample | main.py:896-899 | Snoozing `23:58` gives `00:03`. |
| Doses.CalculateDoses | main.py:217-228 | The count is positive exactly when both texts are positive integers; then it is the least number of doses, `hours` apart, that covers `days` whole days: ceil(days·24 / hours). |
| Doses.CalculateDosesExamples | test/test_agregar.py:46-59 | (3, 8) gives 9, (5, 6) gives 20 and (7, 12) gives 14; (5, 12) gives 10 as in the automatic-count test. |
| Doses.CalculateDosesRejects | test/test_agregar.py:62-72 | Zero, negative and non-numeric texts give 0 doses. |
| Doses.AnchorSecond | main.py:246-248 | The start time's second of the day as `get_medication_progress` reads it: split at `:`, `int()` on the first two pieces, hour below 24 and minute below 60 (the range `replace()` enforces); anything else is undefined. |
| Doses.AnchorAgreesWithStrptime | main.py:246-248 | For a time strptime accepts, the split-and-`int()` reading of the progress computation gives the same time of day. |
| Doses.MedicationProgress | main.py:230-259 | Undefined progress (non-positive or non-numeric counts, unreadable time) is (0, 0, 0). Otherwise the total is the course's dose count, taken is the record's count, and expected is the number of doses due, one every `hours` hours from the most recent occurrence of the start time, capped at the total. |
| Doses.FormulaIsDueCount | main.py:254-255 | `min(floor(elapsed / interval) + 1, total)` meets that description of the doses due. |
| Doses.DueCountIsFormula | main.py:254-255 | The description fixes the count: any count meeting it equals the formula. |
| Doses.FirstDoseExpectedAtStart | main.py:250-255 | At the start time itself exactly one dose is expected. |
| Doses.NextDoseTime | main.py:261-278 | A non-numeric interval, a time that does not split into exactly two pieces, or two pieces either of which `int()` rejects, gives the record's own time (the `except` branch). |
| Doses.NextDoseTimeIsNextDoseMinute | main.py:261-276 | For a valid time and a numeric interval, the next dose is printed as strftime would print the start time moved on `hours` hours per dose taken, modulo a day. |
| Doses.NextDoseAdvancesByInterval | main.py:272-273 | Each dose taken moves the next dose exactly `hours` hours later, modulo a day. |
| Doses.NextDoseInitially | main.py:272-273 | With no dose taken the next dose is at the start time. |
| Reminder.Due | main.py:857-865 | A record is due at a minute when its armed alert text equals the clock's `%H:%M`, its course is not completed, and that alert text is not the one last notified. |
| Reminder.Notify | main.py:971-972 | Surfacing a record records its armed alert as the last notified time, so it is due at no minute afterwards; course, prescription and alert are unchanged. |
| Reminder.Tick | main.py:853-973 | One tick surfaces nothing exactly when no record is due. Otherwise it surfaces the first due record in list order, marks only that record notified, and builds the dialog from it. |
| Reminder.RepeatTickMovesOn | main.py:857-973 | A second tick in the same minute never surfaces the record the first one surfaced. |
| Reminder.CompletedNeverDue | main.py:862 | A completed course is never due. |
| Reminder.Taken | main.py:869-890 | "Taken" counts one more dose, never beyond the total: the new count is min(taken + 1, total), so a course already at its total (a zero-dose course included) stays there. It completes the course once the total is reached, records the fired alert as notified, resets the alert to the scheduled time, and keeps the prescription. |
| Reminder.TakenKeepsCounts | main.py:870-875 | "Taken" keeps 0 ≤ taken ≤ total and the completed flag consistent, and never reopens a course. |
| Reminder.TakingEveryDoseCompletes | main.py:870-875 | As many "taken" answers as doses remain complete the course with every dose counted. |
| Reminder.Snooze | main.py:893-908 | Snoozing fails exactly when strptime rejects the armed alert. Otherwise the alert moves five minutes on (wrapping at midnight), the fired alert is recorded as notified, and the course is untouched. |
| Reminder.SnoozeStaysOnGrid | main.py:896-905 | Snoozing keeps the alert a whole number of five-minute steps after the scheduled time, modulo a day. |
| Reminder.TakenResetsGrid | main.py:879-880 | "Taken" puts the alert back on the scheduled time, so the record is on the five-minute grid again (zero steps); with `Reminder.SnoozeStaysOnGrid` this makes the grid an invariant of both answers. |
| Reminder.SurfaceAndSnooze | main.py:893-972 | Surfacing and then snoozing moves the alert five minutes on and records the surfaced alert as notified. |
| Reminder.SnoozedReminderRefires | main.py:893-911 | A reminder due at minute `a` that is surfaced and snoozed is due again at the tick five minutes later (modulo a day), so the snoozed dialog does come back. |
| Reminder.SnoozeTwice | main.py:896-905 | Two snoozes move the alert ten minutes on, modulo a day. |
| Reminder.NotifiedAlertStaysSilent | main.py:864-865 | A record whose armed alert is already recorded as notified is never surfaced by any run of ticks and stays unchanged. |
| Reminder.TakenAtScheduledTimeSilences | main.py:878-881 | "Taken" on an un-snoozed reminder leaves the record not due at every minute. |
| Reminder.UnpaddedTimeNeverDue | main.py:854-860 | A valid time shorter than five characters never equals the clock's `%H:%M`, so such a record never fires. |
| Store.Insert | main.py:151-187 | Insertion fails exactly when a value cannot be bound: days or hours is not an integer (`int()`'s `ValueError`, the `NotAnInteger` error exactly then), or a bound integer lies outside SQLite's signed 64-bit range (`OverflowError`, `TooLarge`). An existing (name, time) leaves the table unchanged and returns that row's id. A new pair is appended with the next AUTOINCREMENT id, holding the record's values. |
| Store.InsertKeepsValid | main.py:107-113 | Insertion keeps ids increasing and below the counter, and keeps (name, time) unique. |
| Store.InsertIdempotent | main.py:168-181 | Inserting the same record twice changes nothing the second time and returns the same id. |
| Store.SameNameOtherTimeGetsOwnId | test/test_agregar.py:95-110 | The same medicine at two different times is stored as two rows with distinct ids. |
| Store.InsertReturnsKeyRow | main.py:174-184 | The returned id names a row holding the record's (name, time). |
| Store.InsertFreshIdIsNew | main.py:184 | The id `lastrowid` returns for a new (name, time) is carried by no row of the table before the insertion. |
| Store.Update | main.py:189-215 | No id means no change. Otherwise the update fails exactly when a value cannot be bound, as for `Store.Insert` (`NotAnInteger` exactly when days or hours is not an integer). On success only rows with that id change: they take the record's state and keep their id, name and time. |
| Store.RecordOf | main.py:133-147 | A record read back from a row carries the row's id and (name, time), its days and hours print the row's integers so that `int()` reads them back, and every other column (grams, total and taken doses, completed, last notification) is copied as it is, whatever the start date and alert hold; an empty start date becomes today and an empty alert the scheduled time, and non-empty ones are copied. |
| Store.Load | main.py:117-149 | The listing has one record per row, the i-th read back from the i-th row counted from the end, so the ids of a valid table are strictly descending (`ORDER BY id DESC`). |
| Store.StoredSameKey | main.py:189-215 | Whether the table stores a record depends only on the record's id and (name, time), so changing its state does not unstore it. |
| Store.UpdateKeepsStored | main.py:189-215 | An update never moves an id or a key, so every record stored before is stored after. |
| Store.InsertKeepsStored | main.py:151-187 | An insertion keeps the old rows in front, so every record stored before is stored after. |
| Store.AppendedRowPersists | main.py:155-185 | A row appended to a valid table under the next AUTOINCREMENT id, holding the record, is the only row with that id: the table persists the record. |
| Store.InsertThenLoad | main.py:117-187 | A record saved under a new (name, time), with canonical numbers, is listed first on the next load, exactly as saved plus its id. |
| Store.LoadedNumbersCanonical | main.py:138-139 | Every loaded day and hour count reads back as the integer it prints. |
| Engine.SaveMedicine | main.py:328-372 | The checks come in the source's order, and each error holds exactly under its condition: an empty field; then a time strptime rejects; then the pair already listed; then a value `insert_medicine_db` cannot bind (`InsertFailed`, with `NotAnInteger` exactly when a stripped count is not an integer and `TooLarge` when a value overflows 64 bits). On success one record is appended with the stripped fields, the computed total, nothing taken, the alert at the scheduled time, today's start date, and an id. When the table had no row with that (name, time), one row is appended under the next id, and it holds the record; otherwise the table is unchanged (INSERT OR IGNORE) and the record takes the existing row's id. |
| Engine.UnregisteredNotInTable | main.py:107-113 | Under the invariant a (name, time) the list does not hold has no row, so the duplicate check of `save_medicine` is the table's unique index. |
| Engine.SavePersists | main.py:328-372 | Under the invariant a successful save appends a new row, and the table persists the new record: its row is the only one with its id. |
| Engine.SaveKeepsInv | main.py:328-372 | Saving keeps the invariant: a valid table, consistent dose counters, records the table can update, every listed record stored under its id and (name, time), no (name, time) twice in the list, and every row listed. |
| Engine.SaveTwiceRefused | main.py:344-346 | Saving the same medicine at the same time again is refused as already registered. |
| Engine.SaveThenRestart | main.py:328-372 | In any state that keeps the invariant (after any mix of saves, ticks and answers), a medicine saved with canonical counts is the first one listed after a restart, equal to the record appended in memory. |
| Engine.Start | main.py:836-839 | Start-up lists the table as `load_medicines_from_db` reads it; `Engine.StartEstablishesInv` states what that gives. |
| Engine.StartEstablishesInv | main.py:117-149 | Start-up from a valid table whose rows have consistent dose counters establishes the invariant: every listed record is sound and stored under its id and key, no key is listed twice, and every row is listed. |
| Engine.ReplaceKeepsInv | main.py:189-215 | Replacing a listed record by a sound one with the same id and key, in a table whose ids and keys did not move, keeps the invariant. |
| Engine.FireKeepsInv | main.py:853-973 | A tick keeps the invariant. |
| Engine.Persist | main.py:189-215 | `update_medicine_db` of one listed record: the update fails exactly when the record has an id and a value that cannot be bound (not an integer, or outside 64 bits), and then the table is unchanged; on success the table is exactly what `Store.Update` makes of it, so rows with other ids and the id counter are untouched; a persistable record the table stores ends up persisted. |
| Engine.AnswerTaken | main.py:869-887 | "Taken" changes the record in the list. The update fails exactly when the record has an id and the new record has a value that cannot be bound (not an integer, or outside 64 bits), leaving the table unchanged; on success the table is what `Store.Update` makes of it with the new record, so other rows are untouched. For a persistable record the table stores, and always under the invariant, the update succeeds and the row with its id holds its new state. |
| Engine.AnswerSnooze | main.py:893-908 | "Snooze" on an alert strptime rejects fails and changes nothing. Otherwise the snoozed record replaces the old one, with the same failure condition as "taken", and on success only rows with its id change, as `Store.Update` states. For a persistable stored record, and always under the invariant, its row then holds it. |
| Engine.AnswerTakenKeepsInv | main.py:869-887 | Answering "taken" keeps the invariant. |
| Engine.AnswerSnoozeKeepsInv | main.py:893-908 | Answering "snooze" keeps the invariant. |
| Engine.SaveScenario | test/test_agregar.py:13-27 | Saving Paracetamol at 08:00 for 3 days every 8 hours into an empty app gives one record with 9 doses, id 1, nothing taken and the alert at 08:00. |
| Engine.TakeScenario | main.py:853-973 | That record, in the table the save produced, fires at 08:00. Answering "taken" counts one dose, the update succeeds and its row holds the count, and no later run of ticks changes it. |

## Left out

- `update_meds_list`: its rendering is user interface. It also rewrites each record's `total_doses` with the total from `get_medication_progress` (main.py:389-392). That is `calculate_doses` of the record's own days and hours, the value `save_medicine` already stored, so for records the app creates it changes nothing and is not modelled; a row edited outside the app to hold another total would be corrected in memory only.
- Store.Insert: ids are a gap-free counter (`nextId`), so the n-th new row gets id n. SQLite's AUTOINCREMENT (main.py:92) promises only that a new id is larger than every id the table has used; an insertion the unique index ignores (main.py:156) may still consume an id, so the next new row can get a larger id than the model's. The properties that matter (ids grow, a new id is unused, the returned id names the key's row) hold for any increasing allocation; the exact values in `Engine.SaveScenario` and `Engine.TakeScenario` assume the gap-free counter.
- The Kivy/KivyMD screens, dialogs, menus, list rendering and colours (`show_empty_state`, `show_info_dialog`, `on_text_fields_change`, `reset_add_screen`, `on_switch_tabs`, `toggle_medication_details`): user interface only.
- `show_medication_menu`, `select_medication`, `get_medication_info` and `MEDICATIONS_LIST`: a fixed catalogue the user picks the name from. The model takes the chosen name as an input.
- SQLite itself (connections, files, `get_db_path`, `init_db`): the table is an abstract sequence of rows. The schema's unique index is the `Valid` invariant.
- NULL columns on load (`int(r[6]) if r[6] is not None else 0`): the model's rows always hold values.
- `Clock.schedule_interval` and `Clock.schedule_once`: scheduling is the caller's; a tick is one call of `Reminder.Tick` at a given minute.
- `datetime.now()`: the clock and the date are parameters. Microseconds, seconds within a tick, time zones and daylight saving time are not modelled.
- The floating-point progress ratio and the colours it drives: presentation only.
- The transient `taken` flag and the `last_notification` key: set and reset within one call, or never read.
- Doses.MedicationProgress: computes the expected count with exact integer floor division of whole seconds. The source divides floating-point hours, and its rounding is not modelled.
- Doses.CalculateDoses: the source's `math.ceil` of a float quotient, and its `OverflowError` for huge inputs, are modelled as exact integer ceiling division.
- Text.ParseInt: accepts an optional sign and ASCII digits. Python's `int()` also accepts surrounding whitespace, single underscores between digits (`"1_0"`) and non-ASCII decimal digits (`"١٠"`). `strip()` removes only the surrounding whitespace, so the other two forms do reach `save_medicine` through the days and hours fields: Python saves the course (main.py:165-166, 220-221), while the model refuses it with `InsertFailed` and counts 0 doses for it. In the other direction, Python 3.11 and later refuse a digit string longer than 4300 digits with a `ValueError`, which the model parses; any such value is far outside 64 bits, so `Store.Insert` still fails on it, but with `TooLarge` where Python raises the `ValueError`.
- TimeOfDay.ParseTime: ASCII digits only. strptime's `\d` also matches other Unicode decimal digits.
- Repeated snoozing: stated for one and two steps (`Reminder.SnoozeTwice`) and as an invariant (`Reminder.SnoozeStaysOnGrid`). There is no closed form for n steps.
- Exceptions other than the `ValueError` of `int()` and strptime and the `OverflowError` of binding an integer outside 64 bits (`TooLarge`): database errors such as a full disk or a locked file, and a missing dictionary key, are outside the modelled inputs, since the table is an abstract value.

=== FILE: doses.dfy ===
/**
 * Dose arithmetic: `calculate_doses`, `get_medication_progress` and
 * `calculate_next_dose_time`.
 */
module Doses {
  import opened Wrappers
  import opened Text
  import opened TimeOfDay
  import opened Medication

  const HoursPerDay: int := 24
  const SecondsPerHour: int := 3600
  const SecondsPerDay: int := 86400

  /** A wall-clock instant within the current day: seconds since midnight. */
  type Second = s: int | 0 <= s < 86400

  /** Both texts are integers and both are positive. */
  predicate PositiveCourse(days: string, hours: string) {
    ParseInt(days).Some? && ParseInt(hours).Some? && ParseInt(days).value > 0 && ParseInt(hours).value > 0
  }

  /** `n` is the least number of doses, `hours` apart, that covers `days` whole days. */
  ghost predicate CoversCourse(n: int, days: int, hours: int) {
    (n - 1) * hours < days * HoursPerDay <= n * hours
  }

  lemma CeilDivBounds(a: nat, b: nat)
    requires b > 0
    ensures var q := (a + b - 1) / b; (q - 1) * b < a <= q * b
  {
    var q := (a + b - 1) / b;
    var r := (a + b - 1) % b;
    assert a + b - 1 == q * b + r;
    assert (q - 1) * b == q * b - b;
  }

  /**
   * `calculate_doses(days, hours)`: the number of doses in the course, i.e.
   * ceil(days * 24 / hours), and 0 when either text is not a positive integer.
   */
  function CalculateDoses(days: string, hours: string): (total: nat)
    ensures total > 0 <==> PositiveCourse(days, hours)
    ensures PositiveCourse(days, hours) ==>
      CoversCourse(total, ParseInt(days).value, ParseInt(hours).value)
  {
    match (ParseInt(days), ParseInt(hours))
    case (Some(d), Some(h)) =>
      if d <= 0 || h <= 0 then 0
      else
        CeilDivBounds(d * HoursPerDay, h);
        (d * HoursPerDay + h - 1) / h
    case _ => 0
  }

  /** The dose counts of the unit tests for valid courses. */
  lemma CalculateDosesExamples()
    ensures CalculateDoses("3", "8") == 9
    ensures CalculateDoses("5", "6") == 20
    ensures CalculateDoses("7", "12") == 14
    ensures CalculateDoses("5", "12") == 10
  {
    assert "12"[..1] == "1";
  }

  /** Zero, negative and non-numeric texts give no doses. */
  lemma CalculateDosesRejects()
    ensures CalculateDoses("0", "8") == 0 && CalculateDoses("3", "0") == 0
    ensures CalculateDoses("-1", "8") == 0
    ensures CalculateDoses("abc", "8") == 0 && CalculateDoses("3", "xyz") == 0
  {
    assert "-1"[1..] == "1";
  }

  /**
   * The scheduled start time as `get_medication_progress` reads it: split at
   * ':' and the first two pieces read with `int()`, then checked by
   * `datetime.replace`. Seconds since midnight, or `None` when that raises.
   */
  function AnchorSecond(time: string): Option<Second> {
    var parts := Split(time, ':');
    if |parts| < 2 then None
    else
      match (ParseInt(parts[0]), ParseInt(parts[1]))
      case (Some(h), Some(m)) =>
        if 0 <= h < 24 && 0 <= m < 60 then Some(h * SecondsPerHour + m * 60) else None
      case _ => None
  }

  lemma SplitOneColon(a: string, b: string)
    requires ':' !in a && ':' !in b
    ensures Split(a + ":" + b, ':') == [a, b]
  {
    var s := a + ":" + b;
    assert s[|a|] == ':' && s[..|a|] == a;
    assert IndexOf(s, ':') == |a|;
    assert s[|a| + 1..] == b;
  }

  lemma FieldParsesAsInt(t: string, v: int)
    requires HourField(t) == Some(v) || MinuteField(t) == Some(v)
    ensures ParseInt(t) == Some(v) && ':' !in t
  {
    assert AllDigits(t);
    if |t| == 2 {
      assert t[..1][..0] == [];
      assert DigitsValue(t[..1]) == DigitValue(t[0]);
    } else {
      assert t[..0] == [];
    }
    assert DigitsValue(t) == v;
  }

  /**
   * A text strptime accepts splits at ':' into exactly two pieces, which
   * `int()` reads as its hour and its minute.
   */
  lemma StrptimeFields(time: string, m: Minute)
    requires ParseTime(time) == Some(m)
    ensures |Split(time, ':')| == 2
    ensures ParseInt(Split(time, ':')[0]) == Some(HourOf(m))
    ensures ParseInt(Split(time, ':')[1]) == Some(MinuteOf(m))
  {
    var colon := if |time| >= 2 && time[1] == ':' then 1 else 2;
    var ht, mt := time[..colon], time[colon + 1..];
    assert time == ht + ":" + mt;
    assert HourField(ht).Some? && MinuteField(mt).Some?;
    var h, mi := HourField(ht).value, MinuteField(mt).value;
    assert m == h * 60 + mi;
    FieldWritten(ht, h);
    FieldWritten(mt, mi);
    HourMinuteOf(h, mi);
    FieldParsesAsInt(ht, h);
    FieldParsesAsInt(mt, mi);
    SplitOneColon(ht, mt);
  }

  /**
   * Where strptime accepts a time, the split-and-int reading of
   * `get_medication_progress` reads the same time of day.
   */
  lemma AnchorAgreesWithStrptime(time: string, m: Minute)
    requires ParseTime(time) == Some(m)
    ensures AnchorSecond(time) == Some(m * 60)
  {
    StrptimeFields(time, m);
  }

  /** `(total_doses, expected_doses, taken_doses)` as returned by `get_medication_progress`. */
  datatype Progress = Progress(total: int, expected: int, taken: int)

  /** The progress is defined: a positive course and a readable start time. */
  predicate ProgressDefined(r: Record) {
    PositiveCourse(r.days, r.hours) && AnchorSecond(r.time).Some?
  }

  /**
   * Seconds since the most recent occurrence, at or before `now`, of the
   * daily time `anchor`.
   */
  function SinceLastOccurrence(anchor: Second, now: Second): int {
    (now - anchor) % SecondsPerDay
  }

  function Min(a: int, b: int): int {
    if a <= b then a else b
  }

  /**
   * `n` is the number of doses due by second `e` of a course of `total`
   * doses taken `gap` seconds apart from second 0: the doses at seconds
   * 0, gap, 2 gap, ... up to `e`, but never more than `total`.
   */
  predicate DueCount(n: int, e: int, gap: int, total: int) {
    && 1 <= n <= total
    && (n - 1) * gap <= e
    && (n < total ==> e < n * gap)
  }

  lemma MulMono(a: int, b: int, c: nat)
    requires a <= b
    ensures a * c <= b * c
  {
  }

  lemma MulCancel(a: int, b: int, c: int)
    requires c > 0 && a * c < b * c
    ensures a < b
  {
  }

  /** The expected-dose formula `min(floor(e / gap) + 1, total)` meets the description. */
  lemma FormulaIsDueCount(e: nat, gap: nat, total: int)
    requires gap > 0 && total >= 1
    ensures DueCount(Min(e / gap + 1, total), e, gap, total)
  {
    var k := e / gap;
    var n := Min(k + 1, total);
    assert k * gap <= e < k * gap + gap;
    MulMono(n - 1, k, gap);
  }

  /** The description determines the count: it is the expected-dose formula. */
  lemma DueCountIsFormula(n: int, e: nat, gap: nat, total: int)
    requires gap > 0 && DueCount(n, e, gap, total)
    ensures n == Min(e / gap + 1, total)
  {
    var k := e / gap;
    assert k * gap <= e < k * gap + gap;
    MulCancel(n - 1, k + 1, gap);
    if n < total {
      MulCancel(k, n, gap);
    }
  }

  /** `min(floor(e / gap) + 1, total)`, the expected-dose formula. */
  function ExpectedDoses(e: nat, gap: nat, total: int): (n: int)
    requires gap > 0 && total >= 1
    ensures DueCount(n, e, gap, total)
  {
    FormulaIsDueCount(e, gap, total);
    Min(e / gap + 1, total)
  }

  /**
   * The start of the course as `get_medication_progress` places it: today at
   * the scheduled time, or yesterday when that is still ahead of `now`.
   * The result is the number of seconds from that start to `now`.
   */
  function ElapsedSinceStart(anchor: Second, now: Second): (e: nat)
    ensures e == SinceLastOccurrence(anchor, now)
  {
    var start := if anchor > now then anchor - SecondsPerDay else anchor;
    now - start
  }

  /**
   * `get_medication_progress(med)` at the wall-clock time `now`. When the
   * course is defined, the expected count is the number of doses, one every
   * `hours`, from the last occurrence of the start time up to now, capped at
   * the course total; otherwise all three counts are 0.
   */
  function MedicationProgress(r: Record, now: Second): (p: Progress)
    ensures !ProgressDefined(r) ==> p == Progress(0, 0, 0)
    ensures ProgressDefined(r) ==>
      && p.total == CalculateDoses(r.days, r.hours) > 0
      && p.taken == r.takenDoses
    ensures ProgressDefined(r) ==>
      DueCount(p.expected, SinceLastOccurrence(AnchorSecond(r.time).value, now),
               SecondsPerHour * ParseInt(r.hours).value, p.total)
  {
    match (ParseInt(r.days), ParseInt(r.hours))
    case (Some(d), Some(h)) =>
      if d <= 0 || h <= 0 then Progress(0, 0, 0)
      else
        var total := CalculateDoses(r.days, r.hours);
        match AnchorSecond(r.time) {
          case None => Progress(0, 0, 0)
          case Some(a) =>
            Progress(total, ExpectedDoses(ElapsedSinceStart(a, now), SecondsPerHour * h, total), r.takenDoses)
        }
    case _ => Progress(0, 0, 0)
  }

  /** At the scheduled time itself exactly one dose is expected. */
  lemma FirstDoseExpectedAtStart(r: Record, now: Second)
    requires ProgressDefined(r) && AnchorSecond(r.time) == Some(now)
    ensures MedicationProgress(r, now).expected == 1
  {
  }

  /** The time of day `shift` whole hours after `start`, keeping its minute. */
  function ShiftHours(start: Minute, shift: int): Minute {
    ((HourOf(start) + shift) % HoursPerDay) * 60 + MinuteOf(start)
  }

  /** The next dose's time of day: the start hour moved on `hours` per dose taken. */
  function NextDoseMinute(start: Minute, taken: int, hours: int): Minute {
    ShiftHours(start, taken * hours)
  }

  lemma ModUnique(x: int, d: int, q: int, r: int)
    requires d == 24 || d == 1440
    requires 0 <= r < d && x == d * q + r
    ensures x % d == r
  {
  }

  /** Moving an hour on by `hours`, modulo a day, moves its minute of day on by `60 * hours`. */
  lemma HourShift(h0: int, hours: int, mi: int)
    requires 0 <= mi < 60
    ensures ((h0 + hours) % 24) * 60 + mi == ((h0 % 24) * 60 + mi + 60 * hours) % 1440
  {
    var p, r0 := h0 / 24, h0 % 24;
    var q, r := (r0 + hours) / 24, (r0 + hours) % 24;
    assert h0 + hours == 24 * (p + q) + r;
    ModUnique(h0 + hours, 24, p + q, r);
    assert r0 * 60 + mi + 60 * hours == 1440 * q + (r * 60 + mi);
    ModUnique(r0 * 60 + mi + 60 * hours, 1440, q, r * 60 + mi);
  }

  /** Each dose taken moves the next dose exactly `hours` hours later, modulo a day. */
  lemma NextDoseAdvancesByInterval(start: Minute, taken: int, hours: int)
    ensures NextDoseMinute(start, taken + 1, hours) == (NextDoseMinute(start, taken, hours) + 60 * hours) % MinutesPerDay
  {
    var x := taken * hours;
    assert (taken + 1) * hours == x + hours;
    assert HourOf(start) + (x + hours) == (HourOf(start) + x) + hours;
    HourShift(HourOf(start) + x, hours, MinuteOf(start));
  }

  /** Before any dose is taken the next dose is at the start time. */
  lemma NextDoseInitially(start: Minute, hours: int)
    ensures NextDoseMinute(start, 0, hours) == start
  {
  }

  /**
   * `calculate_next_dose_time(med)`: the start time read with split and
   * `int()`, its hour moved on `hours` per dose taken (modulo 24), written
   * `f"{h:02d}:{m:02d}"`; the record's own time when that raises.
   */
  function NextDoseTime(r: Record): (s: string)
    ensures ParseInt(r.hours).None? ==> s == r.time
    ensures |Split(r.time, ':')| != 2 ==> s == r.time
    ensures |Split(r.time, ':')| == 2 && (ParseInt(Split(r.time, ':')[0]).None? || ParseInt(Split(r.time, ':')[1]).None?) ==>
      s == r.time
  {
    var parts := Split(r.time, ':');
    if |parts| != 2 || ParseInt(parts[0]).None? || ParseInt(parts[1]).None? || ParseInt(r.hours).None? then
      r.time
    else
      NextDoseText(ParseInt(parts[0]).value, ParseInt(parts[1]).value, r.takenDoses * ParseInt(r.hours).value)
  }

  /** The f-string `f"{next_hour:02d}:{minute:02d}"` of `calculate_next_dose_time`. */
  function NextDoseText(hour: int, minute: int, shift: int): string {
    Pad02((hour + shift) % HoursPerDay) + ":" + Pad02(minute)
  }

  /**
   * For a start time strptime accepts and a numeric interval, the next dose
   * is printed as strftime would print the start time moved on `hours`
   * hours per dose taken.
   */
  lemma NextDoseTimeIsNextDoseMinute(r: Record, start: Minute, hours: int)
    requires ParseTime(r.time) == Some(start) && ParseInt(r.hours) == Some(hours)
    ensures NextDoseTime(r) == FormatTime(NextDoseMinute(start, r.takenDoses, hours))
  {
    StrptimeFields(r.time, start);
    var parts := Split(r.time, ':');
    assert ParseInt(parts[0]) == Some(HourOf(start)) && ParseInt(parts[1]) == Some(MinuteOf(start));
    assert NextDoseTime(r) == NextDoseText(HourOf(start), MinuteOf(start), r.takenDoses * hours);
    NextDoseFormatted(start, r.takenDoses * hours);
  }

  /** For an hour and minute in range, `f"{h:02d}:{m:02d}"` writes what strftime writes. */
  lemma PaddedIsFormatted(h: int, mi: int)
    requires 0 <= h < 24 && 0 <= mi < 60
    ensures Pad02(h) + ":" + Pad02(mi) == FormatTime(h * 60 + mi)
  {
    HourMinuteOf(h, mi);
    Pad02IsTwoDigits(h);
    Pad02IsTwoDigits(mi);
  }

  /** The f-string of `calculate_next_dose_time` writes what strftime writes for the shifted time. */
  lemma NextDoseFormatted(start: Minute, shift: int)
    ensures NextDoseText(HourOf(start), MinuteOf(start), shift) == FormatTime(ShiftHours(start, shift))
  {
    var nh, mi := (HourOf(start) + shift) % HoursPerDay, MinuteOf(start);
    PaddedIsFormatted(nh, mi);
    assert NextDoseText(HourOf(start), mi, shift) == Pad02(nh) + ":" + Pad02(mi);
    assert ShiftHours(start, shift) == nh * 60 + mi;
  }
}

=== FILE: engine.dfy ===
/**
 * The application state of `MedicineApp` behind its screens: the in-memory
 * list `self.medicines` and the table that persists it, with the record
 * creation of `save_medicine` and the two dialog answers of
 * `check_reminders` applied to both.
 */
module Engine {
  import opened Wrappers
  import opened Text
  import opened TimeOfDay
  import opened Medication
  import opened Doses
  import opened Reminder
  import opened Store

  /** `self.medicines` and the table. */
  datatype App = App(meds: seq<Record>, table: Table)

  /** Start-up: the list is what the table lists. */
  function Start(table: Table, today: string): App {
    App(Load(table, today), table)
  }

  /** Why `save_medicine` stops without saving. */
  datatype SaveError =
    | MissingFields                  // a field is empty after stripping
    | BadTimeFormat                  // strptime rejects the time
    | AlreadyRegistered              // the list already holds this name at this time
    | InsertFailed(cause: StoreError) // `int()` or the INTEGER binding raises inside `insert_medicine_db`

  /** Some record of the list has this name and this time. */
  predicate Registered(meds: seq<Record>, name: string, time: string) {
    exists i :: 0 <= i < |meds| && meds[i].name == name && meds[i].time == time
  }

  /** Every form field holds something besides whitespace (the name is a selection, not typed). */
  predicate FieldsPresent(name: string, time: string, grams: string, days: string, hours: string) {
    name != [] && !AllSpace(time) && !AllSpace(grams) && !AllSpace(days) && !AllSpace(hours)
  }

  /** The record `save_medicine` builds from the stripped fields, before it has an id. */
  function NewRecord(name: string, time: string, grams: string, days: string, hours: string, today: string): Record {
    Record(None, name, time, grams, days, hours, CalculateDoses(days, hours), 0, false, today, time, None)
  }

  /** A record as it starts its course: nothing taken, nothing notified, the alert on the schedule. */
  predicate Fresh(r: Record) {
    && r.takenDoses == 0 && !r.completed
    && r.currentAlertTime == r.time && r.lastNotificationTime == None
  }

  /**
   * `save_medicine` with the texts of the form and the date `today`: the
   * checks in their order, then the record inserted into the table and
   * appended to the list with the id the table returned.
   */
  function SaveMedicine(app: App, name: string, timeText: string, gramsText: string,
                        daysText: string, hoursText: string, today: string): (res: Result<App, SaveError>)
    ensures res == Failure(MissingFields) <==> !FieldsPresent(name, timeText, gramsText, daysText, hoursText)
    ensures res == Failure(BadTimeFormat) <==>
      FieldsPresent(name, timeText, gramsText, daysText, hoursText) && !IsValidTimeFormat(Strip(timeText))
    ensures res == Failure(AlreadyRegistered) <==>
      && FieldsPresent(name, timeText, gramsText, daysText, hoursText) && IsValidTimeFormat(Strip(timeText))
      && Registered(app.meds, name, Strip(timeText))
    ensures res.Failure? && res.error.InsertFailed? <==>
      && FieldsPresent(name, timeText, gramsText, daysText, hoursText) && IsValidTimeFormat(Strip(timeText))
      && !Registered(app.meds, name, Strip(timeText))
      && !Bindable(NewRecord(name, Strip(timeText), Strip(gramsText), Strip(daysText), Strip(hoursText), today))
    ensures res == Failure(InsertFailed(NotAnInteger)) <==>
      && FieldsPresent(name, timeText, gramsText, daysText, hoursText) && IsValidTimeFormat(Strip(timeText))
      && !Registered(app.meds, name, Strip(timeText))
      && (ParseInt(Strip(daysText)).None? || ParseInt(Strip(hoursText)).None?)
    ensures res.Success? ==>
      && |res.value.meds| == |app.meds| + 1 && res.value.meds[..|app.meds|] == app.meds
    ensures res.Success? ==>
      var r := res.value.meds[|app.meds|];
      && r.name == name && r.time == Strip(timeText) && r.grams == Strip(gramsText)
      && r.days == Strip(daysText) && r.hours == Strip(hoursText) && r.startDate == today
      && r.totalDoses == CalculateDoses(r.days, r.hours) && Fresh(r) && r.id.Some?
    ensures res.Success? && KeyIndex(app.table.rows, name, Strip(timeText)).None? ==>
      var (r, t) := (res.value.meds[|app.meds|], res.value.table);
      && |t.rows| == |app.table.rows| + 1 && t.rows[..|app.table.rows|] == app.table.rows
      && r.id == Some(app.table.nextId) && t.rows[|app.table.rows|].id == r.id.value
      && Holds(t.rows[|app.table.rows|], r)
    ensures res.Success? && KeyIndex(app.table.rows, name, Strip(timeText)).Some? ==>
      && res.value.table == app.table
      && res.value.meds[|app.meds|].id == Some(app.table.rows[KeyIndex(app.table.rows, name, Strip(timeText)).value].id)
  {
    var time, grams, days, hours := Strip(timeText), Strip(gramsText), Strip(daysText), Strip(hoursText);
    if name == [] || time == [] || grams == [] || days == [] || hours == [] then Failure(MissingFields)
    else if !IsValidTimeFormat(time) then Failure(BadTimeFormat)
    else if exists i :: 0 <= i < |app.meds| && app.meds[i].name == name && app.meds[i].time == time then
      Failure(AlreadyRegistered)
    else
      var rec := NewRecord(name, time, grams, days, hours, today);
      match Insert(app.table, rec)
      case Failure(e) => Failure(InsertFailed(e))
      case Success((table, id)) => Success(App(app.meds + [rec.(id := Some(id))], table))
  }

  /** A record of the list the table can update: it has an id and the statement can bind its numbers. */
  predicate Persistable(r: Record) {
    r.id.Some? && Bindable(r)
  }

  /** Every listed record is stored under its id and key. */
  predicate AllStored(meds: seq<Record>, t: Table) {
    forall i :: 0 <= i < |meds| ==> Stored(t, meds[i])
  }

  /** Every row of the table is listed. */
  predicate ListsTable(meds: seq<Record>, t: Table) {
    forall j :: 0 <= j < |t.rows| ==> Registered(meds, t.rows[j].name, t.rows[j].time)
  }

  /** No (name, time) is listed twice. */
  predicate KeysUnique(meds: seq<Record>) {
    forall i, j :: 0 <= i < j < |meds| ==> !(meds[i].name == meds[j].name && meds[i].time == meds[j].time)
  }

  /** Every listed record has consistent dose counters and can be written back. */
  predicate AllSound(meds: seq<Record>) {
    forall i :: 0 <= i < |meds| ==> CountsConsistent(meds[i]) && Persistable(meds[i])
  }

  /**
   * The application invariant: a valid table, consistent dose counters,
   * records the table can update, every listed record stored under its id
   * and key, no (name, time) twice in the list, and every row of the table
   * listed.
   */
  predicate AppInv(app: App) {
    && Valid(app.table) && AllSound(app.meds) && AllStored(app.meds, app.table)
    && KeysUnique(app.meds) && ListsTable(app.meds, app.table)
  }

  /**
   * Start-up from a valid table whose rows read back with consistent dose
   * counters establishes the invariant.
   */
  lemma StartEstablishesInv(t: Table, today: string)
    requires Valid(t)
    requires forall j :: 0 <= j < |t.rows| ==> CountsConsistent(RecordOf(t.rows[j], today))
    ensures AppInv(Start(t, today))
  {
    StartSound(t, today);
    StartStoresAndLists(t, today);
    StartKeysUnique(t, today);
  }

  /** Records read back from 64-bit rows with consistent counters are sound. */
  lemma StartSound(t: Table, today: string)
    requires forall j :: 0 <= j < |t.rows| ==> RowFits(t.rows[j]) && CountsConsistent(RecordOf(t.rows[j], today))
    ensures AllSound(Load(t, today))
  {
    var meds, n := Load(t, today), |t.rows|;
    forall i | 0 <= i < n ensures CountsConsistent(meds[i]) && Persistable(meds[i]) {
      var row := t.rows[n - 1 - i];
      assert meds[i] == RecordOf(row, today);
      assert ReadBack(row, meds[i], today) && RowFits(row);
      assert meds[i].totalDoses == row.totalDoses && meds[i].takenDoses == row.takenDoses;
    }
  }

  /** A valid table lists no (name, time) twice. */
  lemma StartKeysUnique(t: Table, today: string)
    requires Valid(t)
    ensures KeysUnique(Load(t, today))
  {
    var meds, n := Load(t, today), |t.rows|;
    forall i, j | 0 <= i < j < n ensures !(meds[i].name == meds[j].name && meds[i].time == meds[j].time) {
      assert !HasKey(t.rows[n - 1 - i], t.rows[n - 1 - j].name, t.rows[n - 1 - j].time);
    }
  }

  /** The start-up listing and its table store and list each other. */
  lemma StartStoresAndLists(t: Table, today: string)
    ensures AllStored(Load(t, today), t) && ListsTable(Load(t, today), t)
  {
    var meds, n := Load(t, today), |t.rows|;
    forall i | 0 <= i < n ensures Stored(t, meds[i]) {
      assert t.rows[n - 1 - i].id == meds[i].id.value && HasKey(t.rows[n - 1 - i], meds[i].name, meds[i].time);
    }
    forall j | 0 <= j < n ensures Registered(meds, t.rows[j].name, t.rows[j].time) {
      assert meds[n - 1 - j].name == t.rows[j].name && meds[n - 1 - j].time == t.rows[j].time;
    }
  }

  /** Under the invariant a (name, time) the list does not hold is not in the table. */
  lemma UnregisteredNotInTable(app: App, name: string, time: string)
    requires AppInv(app) && !Registered(app.meds, name, time)
    ensures KeyIndex(app.table.rows, name, time).None?
  {
    forall j | 0 <= j < |app.table.rows| ensures !HasKey(app.table.rows[j], name, time) {
      assert Registered(app.meds, app.table.rows[j].name, app.table.rows[j].time);
    }
  }

  /**
   * Under the invariant a successful save appends a new row: the table
   * holds the new record under a fresh id, and the row with that id is
   * the only one.
   */
  lemma SavePersists(app: App, name: string, timeText: string, gramsText: string,
                     daysText: string, hoursText: string, today: string)
    requires AppInv(app)
    ensures var res := SaveMedicine(app, name, timeText, gramsText, daysText, hoursText, today);
      res.Success? ==> Persisted(res.value.table, res.value.meds[|app.meds|])
  {
    var res := SaveMedicine(app, name, timeText, gramsText, daysText, hoursText, today);
    if res.Failure? {
      return;
    }
    UnregisteredNotInTable(app, name, Strip(timeText));
    AppendedRowPersists(app.table, res.value.table, res.value.meds[|app.meds|]);
  }

  /** Appending a new row and a record under its key keeps the invariant. */
  lemma AppendKeepsInv(app: App, r: Record, table: Table, row: Row)
    requires AppInv(app) && Valid(table)
    requires CountsConsistent(r) && Persistable(r) && !Registered(app.meds, r.name, r.time)
    requires table.rows == app.table.rows + [row] && row.id == r.id.value && HasKey(row, r.name, r.time)
    ensures AppInv(App(app.meds + [r], table))
  {
    AppendKeepsSound(app.meds, r);
    AppendKeepsUnique(app.meds, r);
    AppendKeepsStored(app.meds, app.table, r, row);
    AppendKeepsListed(app.meds, app.table, r, row);
  }

  /** Appending a sound record keeps the list sound. */
  lemma AppendKeepsSound(meds: seq<Record>, r: Record)
    requires AllSound(meds) && CountsConsistent(r) && Persistable(r)
    ensures AllSound(meds + [r])
  {
    assert forall i :: 0 <= i < |meds| ==> (meds + [r])[i] == meds[i];
  }

  /** Appending a record under a (name, time) the list does not hold keeps the keys unique. */
  lemma AppendKeepsUnique(meds: seq<Record>, r: Record)
    requires KeysUnique(meds) && !Registered(meds, r.name, r.time)
    ensures KeysUnique(meds + [r])
  {
    assert forall i :: 0 <= i < |meds| ==> (meds + [r])[i] == meds[i];
  }

  /** Appending a row keeps the old records stored and stores the new one. */
  lemma AppendKeepsStored(meds: seq<Record>, t: Table, r: Record, row: Row)
    requires AllStored(meds, t) && r.id.Some? && row.id == r.id.value && HasKey(row, r.name, r.time)
    ensures AllStored(meds + [r], Table(t.rows + [row], t.nextId + 1))
  {
    var meds', t', n := meds + [r], Table(t.rows + [row], t.nextId + 1), |t.rows|;
    forall i | 0 <= i < |meds'| ensures Stored(t', meds'[i]) {
      if i < |meds| {
        assert Stored(t, meds[i]);
        var j :| 0 <= j < n && t.rows[j].id == meds[i].id.value && HasKey(t.rows[j], meds[i].name, meds[i].time);
        assert t'.rows[j] == t.rows[j] && meds'[i] == meds[i];
      } else {
        assert t'.rows[n] == row;
      }
    }
  }

  /** Appending a record with the new row's key keeps every row listed. */
  lemma AppendKeepsListed(meds: seq<Record>, t: Table, r: Record, row: Row)
    requires ListsTable(meds, t) && HasKey(row, r.name, r.time)
    ensures ListsTable(meds + [r], Table(t.rows + [row], t.nextId + 1))
  {
    var meds', t', n := meds + [r], Table(t.rows + [row], t.nextId + 1), |t.rows|;
    forall j | 0 <= j < |t'.rows| ensures Registered(meds', t'.rows[j].name, t'.rows[j].time) {
      if j < n {
        assert t'.rows[j] == t.rows[j];
        var i :| 0 <= i < |meds| && meds[i].name == t.rows[j].name && meds[i].time == t.rows[j].time;
        assert meds'[i] == meds[i];
      } else {
        assert meds'[|meds|] == r;
      }
    }
  }

  /** Saving a medicine keeps the invariant. */
  lemma SaveKeepsInv(app: App, name: string, timeText: string, gramsText: string,
                     daysText: string, hoursText: string, today: string)
    requires AppInv(app)
    ensures var res := SaveMedicine(app, name, timeText, gramsText, daysText, hoursText, today);
      res.Success? ==> AppInv(res.value)
  {
    if SaveMedicine(app, name, timeText, gramsText, daysText, hoursText, today).Failure? {
      return;
    }
    var time := Strip(timeText);
    var rec := NewRecord(name, time, Strip(gramsText), Strip(daysText), Strip(hoursText), today);
    UnregisteredNotInTable(app, name, time);
    InsertKeepsValid(app.table, rec);
    var (table, id) := Insert(app.table, rec).value;
    assert table == Table(app.table.rows + [table.rows[|app.table.rows|]], app.table.nextId + 1);
    AppendKeepsInv(app, rec.(id := Some(id)), table, table.rows[|app.table.rows|]);
  }

  /**
   * A medicine saved with canonical day and hour counts is, after a restart,
   * the first one listed, exactly as it was appended to the list.
   */
  lemma SaveThenRestart(app: App, name: string, timeText: string, gramsText: string,
                        daysText: string, hoursText: string, today: string, later: string)
    requires AppInv(app)
    requires Canonical(Strip(daysText)) && Canonical(Strip(hoursText)) && today != ""
    ensures var res := SaveMedicine(app, name, timeText, gramsText, daysText, hoursText, today);
      res.Success? ==> Start(res.value.table, later).meds[0] == res.value.meds[|app.meds|]
  {
    if SaveMedicine(app, name, timeText, gramsText, daysText, hoursText, today).Failure? {
      return;
    }
    var time := Strip(timeText);
    var rec := NewRecord(name, time, Strip(gramsText), Strip(daysText), Strip(hoursText), today);
    UnregisteredNotInTable(app, name, time);
    InsertThenLoad(app.table, rec, later);
  }

  /** Saving the same medicine at the same time twice is refused the second time. */
  lemma SaveTwiceRefused(app: App, name: string, timeText: string, gramsText: string,
                         daysText: string, hoursText: string, today: string)
    ensures var res := SaveMedicine(app, name, timeText, gramsText, daysText, hoursText, today);
      res.Success? ==> SaveMedicine(res.value, name, timeText, gramsText, daysText, hoursText, today) == Failure(AlreadyRegistered)
  {
    if SaveMedicine(app, name, timeText, gramsText, daysText, hoursText, today).Failure? {
      return;
    }
    var app' := SaveMedicine(app, name, timeText, gramsText, daysText, hoursText, today).value;
    assert app'.meds[|app.meds|].name == name && app'.meds[|app.meds|].time == Strip(timeText);
  }

  /** The second table has the first one's ids and keys, row by row. */
  predicate SameKeys(t0: Table, t: Table) {
    && |t.rows| == |t0.rows|
    && forall j :: 0 <= j < |t.rows| ==> t.rows[j].id == t0.rows[j].id && HasKey(t.rows[j], t0.rows[j].name, t0.rows[j].time)
  }

  /**
   * Replacing record `k` by one with the same id and key, in a table whose
   * ids and keys did not move, keeps the invariant.
   */
  lemma ReplaceKeepsInv(app: App, k: nat, r: Record, t: Table)
    requires AppInv(app) && k < |app.meds|
    requires r.id == app.meds[k].id && r.name == app.meds[k].name && r.time == app.meds[k].time
    requires CountsConsistent(r) && Persistable(r)
    requires Valid(t) && SameKeys(app.table, t)
    ensures AppInv(App(app.meds[k := r], t))
  {
    ReplaceKeepsStored(app.meds, app.table, k, r, t);
    ReplaceKeepsListed(app.meds, app.table, k, r, t);
  }

  /** Replacing a record by one with its id and key keeps every record stored. */
  lemma ReplaceKeepsStored(meds: seq<Record>, t0: Table, k: nat, r: Record, t: Table)
    requires AllStored(meds, t0) && k < |meds| && SameKeys(t0, t)
    requires r.id == meds[k].id && r.name == meds[k].name && r.time == meds[k].time
    ensures AllStored(meds[k := r], t)
  {
    var meds' := meds[k := r];
    forall i | 0 <= i < |meds'| ensures Stored(t, meds'[i]) {
      var j :| 0 <= j < |t0.rows| && t0.rows[j].id == meds[i].id.value && HasKey(t0.rows[j], meds[i].name, meds[i].time);
      assert t.rows[j].id == meds'[i].id.value && HasKey(t.rows[j], meds'[i].name, meds'[i].time);
    }
  }

  /** Replacing a record by one with its key keeps every row listed. */
  lemma ReplaceKeepsListed(meds: seq<Record>, t0: Table, k: nat, r: Record, t: Table)
    requires ListsTable(meds, t0) && k < |meds| && SameKeys(t0, t)
    requires r.name == meds[k].name && r.time == meds[k].time
    ensures ListsTable(meds[k := r], t)
  {
    var meds' := meds[k := r];
    forall j | 0 <= j < |t.rows| ensures Registered(meds', t.rows[j].name, t.rows[j].time) {
      assert Registered(meds, t0.rows[j].name, t0.rows[j].time);
      var i :| 0 <= i < |meds| && meds[i].name == t0.rows[j].name && meds[i].time == t0.rows[j].time;
      assert meds'[i].name == meds[i].name && meds'[i].time == meds[i].time;
    }
  }

  /** A tick changes only the surfaced record's notification mark, and keeps the invariant. */
  lemma FireKeepsInv(app: App, now: Minute)
    requires AppInv(app)
    ensures AppInv(App(Fire(app.meds, now), app.table))
  {
    match FirstDue(app.meds, now)
    case None =>
    case Some(k) =>
      var meds' := Fire(app.meds, now);
      assert SameCourse(app.meds[k], meds'[k]);
      ReplaceKeepsInv(app, k, meds'[k], app.table);
  }

  /**
   * An `update_medicine_db` of one record of the list: a record the table
   * stores and can update ends up persisted; a failure leaves the table
   * as it was.
   */
  function Persist(app: App, k: nat, r: Record): (res: (App, Option<StoreError>))
    requires k < |app.meds|
    ensures res.0.meds == app.meds[k := r]
    ensures res.1.Some? <==> r.id.Some? && !Bindable(r)
    ensures res.1 == Some(NotAnInteger) <==> r.id.Some? && (ParseInt(r.days).None? || ParseInt(r.hours).None?)
    ensures res.1.Some? ==> res.0.table == app.table
    ensures res.1.None? ==> Update(app.table, r) == Success(res.0.table)
    ensures Persistable(r) && Stored(app.table, r) ==> Persisted(res.0.table, r)
  {
    var meds := app.meds[k := r];
    match Update(app.table, r)
    case Success(t) =>
      UpdateKeepsStored(app.table, r, r);
      (App(meds, t), None)
    case Failure(e) => (App(meds, app.table), Some(e))
  }

  /**
   * The answer "taken" to the notice for record `k` that fired at `fired`
   * (`marcar_tomado`): the record is updated in the list, then persisted;
   * when the update raises the list keeps the change. Under the
   * invariant the update succeeds and the table holds the new state.
   */
  function AnswerTaken(app: App, k: nat, fired: string): (res: (App, Option<StoreError>))
    requires k < |app.meds|
    ensures res.0.meds == app.meds[k := Taken(app.meds[k], fired)]
    ensures res.1.Some? <==> app.meds[k].id.Some? && !Bindable(res.0.meds[k])
    ensures res.1 == Some(NotAnInteger) <==>
      app.meds[k].id.Some? && (ParseInt(app.meds[k].days).None? || ParseInt(app.meds[k].hours).None?)
    ensures res.1.Some? ==> res.0.table == app.table
    ensures res.1.None? ==> Update(app.table, res.0.meds[k]) == Success(res.0.table)
    ensures Persistable(app.meds[k]) && Stored(app.table, app.meds[k]) ==> Persisted(res.0.table, res.0.meds[k])
    ensures AppInv(app) ==> res.1.None? && Persisted(res.0.table, res.0.meds[k])
  {
    var r := Taken(app.meds[k], fired);
    if Stored(app.table, app.meds[k]) then
      StoredSameKey(app.table, app.meds[k], r);
      Persist(app, k, r)
    else
      Persist(app, k, r)
  }

  /** Why answering a notice fails. */
  datatype AnswerError = SnoozeFailed(snooze: SnoozeError) | UpdateFailed(update: StoreError)

  /**
   * The answer "snooze" to the notice for record `k` that fired at `fired`
   * (`retrasar_notificacion`): nothing changes when strptime rejects the
   * alert; otherwise as for "taken", with the snoozed record.
   */
  function AnswerSnooze(app: App, k: nat, fired: string): (res: (App, Option<AnswerError>))
    requires k < |app.meds|
    ensures res.1 == Some(SnoozeFailed(AlertNotATime)) <==> !IsValidTimeFormat(app.meds[k].currentAlertTime)
    ensures res.1 == Some(SnoozeFailed(AlertNotATime)) ==> res.0 == app
    ensures Snooze(app.meds[k], fired).Success? ==>
      && res.0.meds == app.meds[k := Snooze(app.meds[k], fired).value]
      && (res.1.Some? <==> app.meds[k].id.Some? && !Bindable(app.meds[k]))
      && (res.1 == Some(UpdateFailed(NotAnInteger)) <==>
            app.meds[k].id.Some? && (ParseInt(app.meds[k].days).None? || ParseInt(app.meds[k].hours).None?))
      && (res.1.Some? ==> res.0.table == app.table)
      && (res.1.None? ==> Update(app.table, res.0.meds[k]) == Success(res.0.table))
      && (Persistable(app.meds[k]) && Stored(app.table, app.meds[k]) ==> Persisted(res.0.table, res.0.meds[k]))
    ensures AppInv(app) && IsValidTimeFormat(app.meds[k].currentAlertTime) ==>
      res.1.None? && Persisted(res.0.table, res.0.meds[k])
  {
    match Snooze(app.meds[k], fired)
    case Failure(e) => (app, Some(SnoozeFailed(e)))
    case Success(r) =>
      var (app', err) := if Stored(app.table, app.meds[k]) then
          StoredSameKey(app.table, app.meds[k], r);
          Persist(app, k, r)
        else Persist(app, k, r);
      (app', if err.Some? then Some(UpdateFailed(err.value)) else None)
  }

  /** Updating one record keeps the invariant when the record stays consistent and keeps its prescription. */
  lemma PersistKeepsInv(app: App, k: nat, r: Record)
    requires AppInv(app) && k < |app.meds|
    requires SamePrescription(app.meds[k], r) && CountsConsistent(r)
    ensures AppInv(Persist(app, k, r).0)
  {
    UpdateKeepsValid(app.table, r);
    ReplaceKeepsInv(app, k, r, Persist(app, k, r).0.table);
  }

  /** Answering "taken" keeps the invariant. */
  lemma AnswerTakenKeepsInv(app: App, k: nat, fired: string)
    requires AppInv(app) && k < |app.meds|
    ensures AppInv(AnswerTaken(app, k, fired).0)
  {
    TakenKeepsCounts(app.meds[k], fired);
    PersistKeepsInv(app, k, Taken(app.meds[k], fired));
  }

  /** Answering "snooze" keeps the invariant. */
  lemma AnswerSnoozeKeepsInv(app: App, k: nat, fired: string)
    requires AppInv(app) && k < |app.meds|
    ensures AppInv(AnswerSnooze(app, k, fired).0)
  {
    if Snooze(app.meds[k], fired).Success? {
      PersistKeepsInv(app, k, Snooze(app.meds[k], fired).value);
    }
  }

  /** The first insertion into an empty table gets id 1. */
  lemma ScenarioInsert()
    ensures var rec := NewRecord("Paracetamol", "08:00", "500", "3", "8", "2026-01-01");
      Insert(EmptyTable, rec) == Success((Table([NewRow(rec, 1, 3, 8)], 2), 1))
  {
    ScenarioNumbers();
  }

  /**
   * Saving "Paracetamol" at 08:00 for 3 days every 8 hours into an empty
   * table: nine doses, the first id, and no dose taken.
   */
  lemma SaveScenario()
    ensures var s := SaveMedicine(App([], EmptyTable), "Paracetamol", "08:00", "500", "3", "8", "2026-01-01");
      s == Success(App([Record(Some(1), "Paracetamol", "08:00", "500", "3", "8", 9, 0, false, "2026-01-01", "08:00", None)],
                       Table([NewRow(NewRecord("Paracetamol", "08:00", "500", "3", "8", "2026-01-01"), 1, 3, 8)], 2)))
  {
    ScenarioTexts();
    ScenarioInsert();
    CalculateDosesExamples();
    ValidTimeExamples();
  }

  /** The form's texts carry no surrounding whitespace. */
  lemma ScenarioTexts()
    ensures Strip("08:00") == "08:00" && Strip("500") == "500" && Strip("3") == "3" && Strip("8") == "8"
  {
    assert !IsSpace('0') && !IsSpace('3') && !IsSpace('5') && !IsSpace('8');
    assert "08:00"[0] == '0' && "08:00"[4] == '0' && "500"[0] == '5' && "500"[2] == '0';
  }

  /** The day and hour counts are numbers. */
  lemma ScenarioNumbers()
    ensures ParseInt("3") == Some(3) && ParseInt("8") == Some(8)
  {
    assert AllDigits("3") && "3"[..0] == [];
    assert AllDigits("8") && "8"[..0] == [];
  }

  /** The table after the save: one row, id 1. */
  function SavedTable(): Table {
    Table([NewRow(NewRecord("Paracetamol", "08:00", "500", "3", "8", "2026-01-01"), 1, 3, 8)], 2)
  }

  /**
   * The saved record fires at 08:00; answering "taken" counts the first of
   * its nine doses, writes it to its row, and no later tick fires it again.
   */
  lemma TakeScenario(nows: seq<Minute>)
    ensures var r := Record(Some(1), "Paracetamol", "08:00", "500", "3", "8", 9, 0, false, "2026-01-01", "08:00", None);
      var meds := Fire([r], 480);
      var (app, err) := AnswerTaken(App(meds, SavedTable()), 0, "08:00");
      && meds == [Notify(r)]
      && err.None? && |app.meds| == 1 && app.meds[0].takenDoses == 1
      && Persisted(app.table, app.meds[0]) && app.table.rows[0].takenDoses == 1
      && |Ticks(app.meds, nows)| == 1 && Ticks(app.meds, nows)[0].takenDoses == 1
  {
    var r := Record(Some(1), "Paracetamol", "08:00", "500", "3", "8", 9, 0, false, "2026-01-01", "08:00", None);
    assert FormatTime(480) == "08:00";
    assert Due(r, 480);
    ScenarioNumbers();
    var n := Notify(r);
    assert SavedTable().rows[0].id == 1 && HasKey(SavedTable().rows[0], n.name, n.time);
    assert Persistable(n) && Stored(SavedTable(), n);
    var after := AnswerTaken(App([n], SavedTable()), 0, "08:00").0;
    assert HoldsState(after.table.rows[0], after.meds[0]);
    NotifiedAlertStaysSilent(after.meds, 0, nows);
  }
}

=== FILE: medication.dfy ===
/**
 * The medication record: one dictionary of `MedicineApp.medicines`, i.e. one
 * prescribed medication at one daily start time.
 */
module Medication {
  import opened Wrappers

  /**
   * Field by field the dictionary keys of the source. Times are kept as the
   * texts the source stores and compares; `days` and `hours` are the texts
   * typed by the user (or `str(int)` after a reload).
   */
  datatype Record = Record(
    id: Option<nat>,                      // assigned by the store; absent before the first save
    name: string,
    time: string,                         // the scheduled daily start time, as entered
    grams: string,                        // dose amount, opaque to the scheduler
    days: string,
    hours: string,
    totalDoses: int,
    takenDoses: int,
    completed: bool,
    startDate: string,
    currentAlertTime: string,             // the time the next reminder is armed for
    lastNotificationTime: Option<string>  // the alert time last surfaced, if any
  )

  /**
   * The dose counters agree: taken lies in 0..total, a completed course has
   * taken every dose, and a non-empty course whose doses are all taken is
   * completed. (A course of zero doses starts not completed.)
   */
  predicate CountsConsistent(r: Record) {
    && 0 <= r.takenDoses <= r.totalDoses
    && (r.completed ==> r.takenDoses == r.totalDoses)
    && (r.totalDoses > 0 && r.takenDoses == r.totalDoses ==> r.completed)
  }

  /** The same prescription: identity, schedule and course length agree. */
  predicate SamePrescription(a: Record, b: Record) {
    && a.id == b.id && a.name == b.name && a.time == b.time && a.grams == b.grams
    && a.days == b.days && a.hours == b.hours && a.startDate == b.startDate
    && a.totalDoses == b.totalDoses
  }

  /** The same prescription with the same dose counters: only the reminder fields may differ. */
  predicate SameCourse(a: Record, b: Record) {
    SamePrescription(a, b) && a.takenDoses == b.takenDoses && a.completed == b.completed
  }
}

=== FILE: reminder.dfy ===
/**
 * The per-record reminder state machine of `check_reminders`: when a record
 * is due, what surfacing it records, and the two answers to the dialog,
 * `marcar_tomado` (taken) and `retrasar_notificacion` (snooze).
 */
module Reminder {
  import opened Wrappers
  import opened TimeOfDay
  import opened Medication

  /**
   * The test `check_reminders` applies to one record at the tick whose wall
   * clock reads `now`: the armed alert text equals the clock's `%H:%M`, the
   * course is not completed, and this alert text was not notified already.
   */
  predicate Due(r: Record, now: Minute) {
    && r.currentAlertTime == FormatTime(now)
    && !r.completed
    && r.lastNotificationTime != Some(r.currentAlertTime)
  }

  /**
   * What the dialog is built from: the record's position in the list, the
   * alert time, the number of the dose about to be taken, and whether the
   * alert is a snoozed one ("(Retrasado)").
   */
  datatype Notice = Notice(index: nat, alert: string, doseNumber: int, delayed: bool)

  function NoticeFor(r: Record, index: nat): Notice {
    Notice(index, r.currentAlertTime, r.takenDoses + 1, r.currentAlertTime != r.time)
  }

  /** Surfacing a reminder marks its alert time as notified; nothing else changes. */
  function Notify(r: Record): (r': Record)
    ensures forall now: Minute :: !Due(r', now)
    ensures SameCourse(r, r') && r'.currentAlertTime == r.currentAlertTime
    ensures r'.lastNotificationTime == Some(r.currentAlertTime)
  {
    r.(lastNotificationTime := Some(r.currentAlertTime))
  }

  /** The first record at or after `from` that is due, scanning in list order. */
  function FirstDueFrom(meds: seq<Record>, now: Minute, from: nat): (k: Option<nat>)
    requires from <= |meds|
    ensures k.Some? ==> from <= k.value < |meds| && Due(meds[k.value], now)
    ensures k.Some? ==> forall i :: from <= i < k.value ==> !Due(meds[i], now)
    ensures k.None? ==> forall i :: from <= i < |meds| ==> !Due(meds[i], now)
    decreases |meds| - from
  {
    if from == |meds| then None
    else if Due(meds[from], now) then Some(from)
    else FirstDueFrom(meds, now, from + 1)
  }

  function FirstDue(meds: seq<Record>, now: Minute): Option<nat> {
    FirstDueFrom(meds, now, 0)
  }

  /** The list after one tick: the first due record, if any, is notified. */
  function Fire(meds: seq<Record>, now: Minute): seq<Record> {
    match FirstDue(meds, now)
    case None => meds
    case Some(k) => meds[k := Notify(meds[k])]
  }

  /**
   * One run of `check_reminders` at the minute `now`: the first due record in
   * list order is surfaced and marked notified, and the scan stops there.
   */
  method Tick(meds: seq<Record>, now: Minute) returns (meds': seq<Record>, notice: Option<Notice>)
    ensures notice.None? <==> forall i :: 0 <= i < |meds| ==> !Due(meds[i], now)
    ensures notice.None? ==> meds' == meds
    ensures notice.Some? ==>
      var k := notice.value.index;
      && k < |meds| && Due(meds[k], now)
      && (forall i :: 0 <= i < k ==> !Due(meds[i], now))
      && meds' == meds[k := Notify(meds[k])]
      && notice.value == NoticeFor(meds[k], k)
    ensures meds' == Fire(meds, now)
  {
    var i := 0;
    while i < |meds|
      invariant 0 <= i <= |meds|
      invariant forall j :: 0 <= j < i ==> !Due(meds[j], now)
    {
      if Due(meds[i], now) {
        meds' := meds[i := Notify(meds[i])];
        notice := Some(NoticeFor(meds[i], i));
        return;
      }
      i := i + 1;
    }
    meds' := meds;
    notice := None;
  }

  /** A tick changes no record except a due one. */
  lemma FireKeepsUndue(meds: seq<Record>, now: Minute, i: nat)
    requires i < |meds| && !Due(meds[i], now)
    ensures |Fire(meds, now)| == |meds| && Fire(meds, now)[i] == meds[i]
  {
  }

  /**
   * A second tick in the same minute never surfaces the record the first one
   * surfaced: it surfaces a later record or none.
   */
  lemma RepeatTickMovesOn(meds: seq<Record>, now: Minute, k: nat)
    requires FirstDue(meds, now) == Some(k)
    ensures var again := FirstDue(Fire(meds, now), now);
      again.None? || again.value > k
  {
  }

  /** A completed course is never due. */
  lemma CompletedNeverDue(r: Record, now: Minute)
    requires r.completed
    ensures !Due(r, now)
  {
  }

  /** `marcar_tomado`: the answer "taken" to the reminder that fired at `fired`. */
  function Taken(r: Record, fired: string): (r': Record)
    ensures r'.takenDoses <= r.totalDoses
    ensures r.takenDoses < r.totalDoses ==> r'.takenDoses == r.takenDoses + 1
    ensures r.takenDoses >= r.totalDoses ==> r'.takenDoses == r.totalDoses
    ensures r'.completed <==> r.completed || r'.takenDoses >= r.totalDoses
    ensures r'.currentAlertTime == r.time && r'.lastNotificationTime == Some(fired)
    ensures SamePrescription(r, r')
  {
    var taken := if r.takenDoses + 1 <= r.totalDoses then r.takenDoses + 1 else r.totalDoses;
    r.(takenDoses := taken,
       completed := if taken >= r.totalDoses then true else r.completed,
       lastNotificationTime := Some(fired),
       currentAlertTime := r.time)
  }

  /** Marking a dose taken keeps the dose counters consistent and never reopens a course. */
  lemma TakenKeepsCounts(r: Record, fired: string)
    requires CountsConsistent(r)
    ensures CountsConsistent(Taken(r, fired))
    ensures r.completed ==> Taken(r, fired).completed
    ensures r.takenDoses <= Taken(r, fired).takenDoses
  {
  }

  /** `n` answers "taken" in a row, each to the reminder at the record's alert time. */
  function TakeRepeatedly(r: Record, n: nat): Record
    decreases n
  {
    if n == 0 then r else TakeRepeatedly(Taken(r, r.currentAlertTime), n - 1)
  }

  /**
   * From a consistent record, as many "taken" answers as doses remain
   * complete the course with every dose counted, and more answers change
   * nothing further in the counters.
   */
  lemma {:induction false} TakingEveryDoseCompletes(r: Record, n: nat)
    requires CountsConsistent(r) && r.totalDoses > 0
    requires n >= r.totalDoses - r.takenDoses
    ensures TakeRepeatedly(r, n).takenDoses == r.totalDoses
    ensures TakeRepeatedly(r, n).completed
    ensures TakeRepeatedly(r, n).totalDoses == r.totalDoses
    decreases n
  {
    if n == 0 {
      assert r.takenDoses == r.totalDoses;
    } else {
      var r1 := Taken(r, r.currentAlertTime);
      TakenKeepsCounts(r, r.currentAlertTime);
      TakingEveryDoseCompletes(r1, n - 1);
    }
  }

  /** Why snoozing can fail: strptime rejects the armed alert text. */
  datatype SnoozeError = AlertNotATime

  /**
   * `retrasar_notificacion`: the answer "snooze" to the reminder that fired
   * at `fired`. The armed alert moves five minutes on, wrapping at midnight;
   * the scheduled time and the dose counters are untouched.
   */
  function Snooze(r: Record, fired: string): (res: Result<Record, SnoozeError>)
    ensures res.Failure? <==> !IsValidTimeFormat(r.currentAlertTime)
    ensures res.Success? ==>
      && res.value.currentAlertTime == FormatTime(AddMinutes(ParseTime(r.currentAlertTime).value, SnoozeMinutes))
      && res.value.lastNotificationTime == Some(fired)
      && SameCourse(r, res.value)
  {
    match SnoozedAlert(r.currentAlertTime)
    case None => Failure(AlertNotATime)
    case Some(alert) => Success(r.(lastNotificationTime := Some(fired), currentAlertTime := alert))
  }

  /**
   * The armed alert lies a whole number of snooze steps after the scheduled
   * time (modulo a day).
   */
  predicate OnSnoozeGrid(r: Record) {
    && ParseTime(r.time).Some?
    && ParseTime(r.currentAlertTime).Some?
    && (ParseTime(r.currentAlertTime).value - ParseTime(r.time).value) % SnoozeMinutes == 0
  }

  /** Snoozing keeps the alert on the grid of five-minute steps from the scheduled time. */
  lemma SnoozeStaysOnGrid(r: Record, fired: string)
    requires OnSnoozeGrid(r)
    ensures Snooze(r, fired).Success? && OnSnoozeGrid(Snooze(r, fired).value)
  {
    var a := ParseTime(r.currentAlertTime).value;
    var t := ParseTime(r.time).value;
    var r' := Snooze(r, fired).value;
    assert r'.time == r.time;
    assert ParseTime(r'.currentAlertTime) == Some(AddMinutes(a, SnoozeMinutes));
    SnoozeStepKeepsResidue(a, t);
  }

  /** Moving on a snooze step, modulo a day, keeps the offset's residue modulo the step. */
  lemma SnoozeStepKeepsResidue(a: Minute, t: Minute)
    ensures (AddMinutes(a, SnoozeMinutes) - t) % SnoozeMinutes == (a - t) % SnoozeMinutes
  {
    var q := (a + SnoozeMinutes) / MinutesPerDay;
    var x := a - t;
    var y := AddMinutes(a, SnoozeMinutes) - t;
    assert y == x + SnoozeMinutes * (1 - 288 * q);
    assert y == SnoozeMinutes * (x / SnoozeMinutes + 1 - 288 * q) + x % SnoozeMinutes;
  }

  /** Marking taken clears any snooze: the alert is back on the scheduled time. */
  lemma TakenResetsGrid(r: Record, fired: string)
    requires ParseTime(r.time).Some?
    ensures OnSnoozeGrid(Taken(r, fired))
    ensures Taken(r, fired).currentAlertTime == r.time
  {
  }

  /** One reminder surfaced and snoozed: the alert moves a snooze step on and the course is kept. */
  lemma SurfaceAndSnooze(r: Record, a: Minute)
    requires ParseTime(r.currentAlertTime) == Some(a)
    ensures Snooze(Notify(r), r.currentAlertTime).Success?
    ensures var r' := Snooze(Notify(r), r.currentAlertTime).value;
      && r'.currentAlertTime == FormatTime(AddMinutes(a, SnoozeMinutes))
      && ParseTime(r'.currentAlertTime) == Some(AddMinutes(a, SnoozeMinutes))
      && r'.lastNotificationTime == Some(r.currentAlertTime)
      && SameCourse(r, r')
  {
    FormatParseRoundTrip(AddMinutes(a, SnoozeMinutes));
  }

  /**
   * A reminder that fires at `a` and is snoozed fires again at the tick a
   * snooze step later: the record is due then, and the dialog is not lost.
   */
  lemma SnoozedReminderRefires(r: Record, a: Minute)
    requires Due(r, a)
    ensures Snooze(Notify(r), r.currentAlertTime).Success?
    ensures Due(Snooze(Notify(r), r.currentAlertTime).value, AddMinutes(a, SnoozeMinutes))
  {
    var later := AddMinutes(a, SnoozeMinutes);
    FormatParseRoundTrip(a);
    SurfaceAndSnooze(r, a);
    if FormatTime(a) == FormatTime(later) {
      FormatTimeInjective(a, later);
    }
    assert a != later;
  }

  /** Snoozing twice moves the alert ten minutes on, modulo a day. */
  lemma SnoozeTwice(r: Record, a: Minute, f1: string, f2: string)
    requires ParseTime(r.currentAlertTime) == Some(a)
    ensures Snooze(r, f1).Success? && Snooze(Snooze(r, f1).value, f2).Success?
    ensures Snooze(Snooze(r, f1).value, f2).value.currentAlertTime == FormatTime(AddMinutes(a, 2 * SnoozeMinutes))
  {
    var a1 := AddMinutes(a, SnoozeMinutes);
    FormatParseRoundTrip(a1);
    AddMinutesTwice(a, SnoozeMinutes, SnoozeMinutes);
  }

  /** Moving on `j` and then `k` minutes is moving on `j + k` minutes. */
  lemma AddMinutesTwice(a: Minute, j: nat, k: nat)
    ensures AddMinutes(AddMinutes(a, j), k) == AddMinutes(a, j + k)
  {
    var q := (a + j) / MinutesPerDay;
    var a1 := AddMinutes(a, j);
    assert a1 == a + j - MinutesPerDay * q;
    var z := a1 + k;
    assert z == MinutesPerDay * (z / MinutesPerDay) + z % MinutesPerDay;
    assert a + j + k == MinutesPerDay * (z / MinutesPerDay + q) + z % MinutesPerDay;
  }

  /** The list after one tick at each minute of `nows`, in order. */
  function Ticks(meds: seq<Record>, nows: seq<Minute>): seq<Record>
    decreases |nows|
  {
    if nows == [] then meds else Ticks(Fire(meds, nows[0]), nows[1..])
  }

  /**
   * A record whose armed alert is already recorded as notified is never
   * surfaced again by any run of ticks, so it stays exactly as it is.
   */
  lemma {:induction false} NotifiedAlertStaysSilent(meds: seq<Record>, k: nat, nows: seq<Minute>)
    requires k < |meds|
    requires meds[k].lastNotificationTime == Some(meds[k].currentAlertTime)
    ensures |Ticks(meds, nows)| == |meds| && Ticks(meds, nows)[k] == meds[k]
    decreases |nows|
  {
    if nows != [] {
      FireKeepsUndue(meds, nows[0], k);
      NotifiedAlertStaysSilent(Fire(meds, nows[0]), k, nows[1..]);
    }
  }

  /**
   * Answering "taken" to an un-snoozed reminder leaves the alert at the
   * scheduled time and that same text recorded as notified, so the record
   * is never due again: the daily reminder does not recur.
   */
  lemma TakenAtScheduledTimeSilences(r: Record, now: Minute)
    requires r.currentAlertTime == r.time
    ensures !Due(Taken(r, r.currentAlertTime), now)
  {
  }

  /**
   * A scheduled time that strptime accepts without zero padding ("8:00")
   * never equals the clock's zero-padded `%H:%M`, so an un-snoozed record
   * with such a time is never due.
   */
  lemma UnpaddedTimeNeverDue(r: Record, now: Minute)
    requires IsValidTimeFormat(r.time) && |r.time| < 5
    requires r.currentAlertTime == r.time
    ensures !Due(r, now)
  {
  }
}

=== FILE: store.dfy ===
/**
 * The `medicamentos` table behind `insert_medicine_db`, `update_medicine_db`
 * and `load_medicines_from_db`, as an in-memory sequence of rows with the
 * same contract: AUTOINCREMENT ids, a unique index on (name, time) that makes
 * a duplicate insert a no-op returning the existing id, updates that never
 * touch the key, and a listing in descending id order.
 */
module Store {
  import opened Wrappers
  import opened Text
  import opened Medication

  /** One row of the table; `days` and `hours` are INTEGER columns. */
  datatype Row = Row(
    id: nat,
    name: string,
    time: string,
    grams: string,
    days: int,
    hours: int,
    totalDoses: int,
    takenDoses: int,
    completed: bool,
    startDate: string,
    currentAlertTime: string,
    lastNotificationTime: Option<string>
  )

  /** The rows in insertion order and the id AUTOINCREMENT hands out next. */
  datatype Table = Table(rows: seq<Row>, nextId: nat)

  /** A freshly created table: no rows, and AUTOINCREMENT starts at 1. */
  const EmptyTable: Table := Table([], 1)

  /**
   * What the schema and the insertion discipline guarantee: AUTOINCREMENT
   * counts from 1, every id was handed out already, ids grow in insertion
   * order, no two rows share a (name, time) pair, and the INTEGER columns
   * hold 64-bit values.
   */
  predicate Valid(t: Table) {
    && t.nextId >= 1
    && (forall i :: 0 <= i < |t.rows| ==> RowFits(t.rows[i]))
    && (forall i :: 0 <= i < |t.rows| ==> 1 <= t.rows[i].id < t.nextId)
    && (forall i, j :: 0 <= i < j < |t.rows| ==> t.rows[i].id < t.rows[j].id)
    && (forall i, j :: 0 <= i < j < |t.rows| ==> !HasKey(t.rows[j], t.rows[i].name, t.rows[i].time))
  }

  predicate HasKey(row: Row, name: string, time: string) {
    row.name == name && row.time == time
  }

  /**
   * Why a statement fails: `int()` raised `ValueError` on the days or hours
   * text, or sqlite3 raised `OverflowError` binding a number outside
   * SQLite's 64-bit INTEGER range.
   */
  datatype StoreError = NotAnInteger | TooLarge

  /** A value sqlite3 can bind as a signed 64-bit INTEGER. */
  predicate FitsInteger(v: int) {
    -0x8000_0000_0000_0000 <= v < 0x8000_0000_0000_0000
  }

  /** The row's INTEGER columns hold 64-bit values. */
  predicate RowFits(row: Row) {
    FitsInteger(row.days) && FitsInteger(row.hours) && FitsInteger(row.totalDoses) && FitsInteger(row.takenDoses)
  }

  /**
   * The INSERT and UPDATE statements can bind the record: `int()` reads its
   * days and hours, and they and the two dose counts fit an INTEGER.
   */
  predicate Bindable(rec: Record) {
    && ParseInt(rec.days).Some? && ParseInt(rec.hours).Some?
    && FitsInteger(ParseInt(rec.days).value) && FitsInteger(ParseInt(rec.hours).value)
    && FitsInteger(rec.totalDoses) && FitsInteger(rec.takenDoses)
  }

  /**
   * The numbers bound for days and hours, or the exception: `int()` runs
   * while the parameter tuple is built, before sqlite3 binds anything.
   */
  function Bind(rec: Record): Result<(int, int), StoreError> {
    match (ParseInt(rec.days), ParseInt(rec.hours))
    case (Some(d), Some(h)) =>
      if FitsInteger(d) && FitsInteger(h) && FitsInteger(rec.totalDoses) && FitsInteger(rec.takenDoses)
      then Success((d, h)) else Failure(TooLarge)
    case _ => Failure(NotAnInteger)
  }

  /** The row holding (name, time), as `SELECT id ... WHERE name=? AND time=?` finds it. */
  function KeyIndex(rows: seq<Row>, name: string, time: string): (k: Option<nat>)
    ensures k.Some? ==> k.value < |rows| && HasKey(rows[k.value], name, time)
    ensures k.None? ==> forall i :: 0 <= i < |rows| ==> !HasKey(rows[i], name, time)
    decreases |rows|
  {
    if rows == [] then None
    else if HasKey(rows[|rows| - 1], name, time) then Some(|rows| - 1)
    else KeyIndex(rows[..|rows| - 1], name, time)
  }

  /** The record's mutable state is what the row holds, with the numbers read by `int()`. */
  predicate HoldsState(row: Row, rec: Record) {
    && ParseInt(rec.days) == Some(row.days) && ParseInt(rec.hours) == Some(row.hours)
    && row.grams == rec.grams
    && row.totalDoses == rec.totalDoses && row.takenDoses == rec.takenDoses
    && row.completed == rec.completed && row.startDate == rec.startDate
    && row.currentAlertTime == rec.currentAlertTime
    && row.lastNotificationTime == rec.lastNotificationTime
  }

  /** The row stores the record: its key and its state. */
  predicate Holds(row: Row, rec: Record) {
    HasKey(row, rec.name, rec.time) && HoldsState(row, rec)
  }

  /** The VALUES tuple of the INSERT statement, given the numbers `int()` read. */
  function NewRow(rec: Record, id: nat, days: int, hours: int): Row {
    Row(id, rec.name, rec.time, rec.grams, days, hours, rec.totalDoses, rec.takenDoses,
        rec.completed, rec.startDate, rec.currentAlertTime, rec.lastNotificationTime)
  }

  /**
   * `insert_medicine_db(rec)`: INSERT OR IGNORE, then the id of the row that
   * holds the record's (name, time), whether just inserted or already there.
   * The new table and that id, or the error `int()` or the binding raises
   * first; a duplicate key does not spare the binding.
   */
  function Insert(t: Table, rec: Record): (res: Result<(Table, nat), StoreError>)
    ensures res.Failure? <==> !Bindable(rec)
    ensures res == Failure(NotAnInteger) <==> ParseInt(rec.days).None? || ParseInt(rec.hours).None?
    ensures res.Success? && KeyIndex(t.rows, rec.name, rec.time).Some? ==>
      var k := KeyIndex(t.rows, rec.name, rec.time).value;
      res.value.0 == t && res.value.1 == t.rows[k].id
    ensures res.Success? && KeyIndex(t.rows, rec.name, rec.time).None? ==>
      var (t', id) := res.value;
      && id == t.nextId && t'.nextId == t.nextId + 1
      && |t'.rows| == |t.rows| + 1 && t'.rows[..|t.rows|] == t.rows
      && t'.rows[|t.rows|].id == id && Holds(t'.rows[|t.rows|], rec)
  {
    match Bind(rec)
    case Success((d, h)) =>
      match KeyIndex(t.rows, rec.name, rec.time) {
        case Some(k) => Success((t, t.rows[k].id))
        case None =>
          var row := NewRow(rec, t.nextId, d, h);
          Success((Table(t.rows + [row], t.nextId + 1), t.nextId))
      }
    case Failure(e) => Failure(e)
  }

  /** Appending a row with the next id and a new key keeps the table valid. */
  lemma AppendKeepsValid(t: Table, row: Row)
    requires Valid(t) && row.id == t.nextId && RowFits(row)
    requires forall i :: 0 <= i < |t.rows| ==> !HasKey(t.rows[i], row.name, row.time)
    ensures Valid(Table(t.rows + [row], t.nextId + 1))
  {
    var rows := t.rows + [row];
    assert forall i :: 0 <= i < |t.rows| ==> rows[i] == t.rows[i];
    assert rows[|t.rows|] == row;
  }

  /** Inserting keeps the table valid. */
  lemma InsertKeepsValid(t: Table, rec: Record)
    requires Valid(t) && Insert(t, rec).Success?
    ensures Valid(Insert(t, rec).value.0)
  {
    if KeyIndex(t.rows, rec.name, rec.time).None? {
      var row := NewRow(rec, t.nextId, ParseInt(rec.days).value, ParseInt(rec.hours).value);
      assert Insert(t, rec).value.0 == Table(t.rows + [row], t.nextId + 1);
      AppendKeepsValid(t, row);
    }
  }

  /**
   * The returned id names a row of the new table that holds the record's
   * (name, time), so the caller's record and the row agree on their key.
   */
  lemma InsertReturnsKeyRow(t: Table, rec: Record)
    requires Insert(t, rec).Success?
    ensures var (t', id) := Insert(t, rec).value;
      exists i :: 0 <= i < |t'.rows| && t'.rows[i].id == id && HasKey(t'.rows[i], rec.name, rec.time)
  {
    var (t', id) := Insert(t, rec).value;
    match KeyIndex(t.rows, rec.name, rec.time)
    case Some(k) => assert t'.rows[k].id == id;
    case None => assert t'.rows[|t.rows|].id == id;
  }

  /** A fresh id is new to the table: no row of a valid table carries it. */
  lemma InsertFreshIdIsNew(t: Table, rec: Record)
    requires Valid(t) && Insert(t, rec).Success?
    requires KeyIndex(t.rows, rec.name, rec.time).None?
    ensures forall i :: 0 <= i < |t.rows| ==> t.rows[i].id != Insert(t, rec).value.1
  {
  }

  /**
   * Inserting the same record twice changes nothing the second time and
   * returns the same id: the unique index makes the insert idempotent.
   */
  lemma InsertIdempotent(t: Table, rec: Record)
    requires Insert(t, rec).Success?
    ensures var (t1, id1) := Insert(t, rec).value;
      Insert(t1, rec) == Success((t1, id1))
  {
    var (t1, id1) := Insert(t, rec).value;
    if KeyIndex(t.rows, rec.name, rec.time).None? {
      assert HasKey(t1.rows[|t.rows|], rec.name, rec.time);
    }
  }

  /**
   * Two records with the same name and different times, both new to a
   * valid table, are stored as two rows with distinct ids.
   */
  lemma SameNameOtherTimeGetsOwnId(t: Table, r1: Record, r2: Record)
    requires Valid(t) && r1.name == r2.name && r1.time != r2.time
    requires KeyIndex(t.rows, r1.name, r1.time).None? && KeyIndex(t.rows, r2.name, r2.time).None?
    requires Insert(t, r1).Success? && Insert(Insert(t, r1).value.0, r2).Success?
    ensures var (t1, id1) := Insert(t, r1).value;
      var (t2, id2) := Insert(t1, r2).value;
      && id1 != id2 && |t2.rows| == |t.rows| + 2
  {
    var (t1, id1) := Insert(t, r1).value;
    assert KeyIndex(t1.rows, r2.name, r2.time).None? by {
      assert forall i :: 0 <= i < |t.rows| ==> t1.rows[i] == t.rows[i];
      assert !HasKey(t1.rows[|t.rows|], r2.name, r2.time);
    }
  }

  /** The SET list of the UPDATE statement: the record's state, the key kept. */
  function UpdatedRow(row: Row, rec: Record, days: int, hours: int): Row {
    row.(grams := rec.grams, days := days, hours := hours, totalDoses := rec.totalDoses,
         takenDoses := rec.takenDoses, completed := rec.completed, startDate := rec.startDate,
         currentAlertTime := rec.currentAlertTime, lastNotificationTime := rec.lastNotificationTime)
  }

  /**
   * `update_medicine_db(rec)`: nothing without an id; otherwise every row
   * with the record's id takes the record's state, or `int()` raises on
   * the days or hours text first, or the binding overflows.
   */
  function Update(t: Table, rec: Record): (res: Result<Table, StoreError>)
    ensures rec.id.None? ==> res == Success(t)
    ensures res.Failure? <==> rec.id.Some? && !Bindable(rec)
    ensures res == Failure(NotAnInteger) <==> rec.id.Some? && (ParseInt(rec.days).None? || ParseInt(rec.hours).None?)
    ensures res.Success? ==>
      && |res.value.rows| == |t.rows| && res.value.nextId == t.nextId
      && forall i :: 0 <= i < |t.rows| ==>
        var (old_, new_) := (t.rows[i], res.value.rows[i]);
        && new_.id == old_.id && new_.name == old_.name && new_.time == old_.time
        && (Some(old_.id) != rec.id ==> new_ == old_)
        && (Some(old_.id) == rec.id ==> HoldsState(new_, rec))
  {
    if rec.id.None? then Success(t)
    else
      match Bind(rec)
      case Success((d, h)) =>
        var rows := seq(|t.rows|, i requires 0 <= i < |t.rows| =>
          if t.rows[i].id == rec.id.value then UpdatedRow(t.rows[i], rec, d, h) else t.rows[i]);
        Success(Table(rows, t.nextId))
      case Failure(e) => Failure(e)
  }

  /** Updating keeps the table valid: ids and keys are never touched. */
  lemma UpdateKeepsValid(t: Table, rec: Record)
    requires Valid(t) && Update(t, rec).Success?
    ensures Valid(Update(t, rec).value)
  {
  }

  /**
   * What a record read back from `row` says: the row's id and key, the
   * INTEGER columns read back by `int()`, every other column of the row's
   * state as it is, except that an empty start date becomes today's date
   * and an empty alert the scheduled time.
   */
  predicate ReadBack(row: Row, rec: Record, today: string) {
    && rec.id == Some(row.id) && HasKey(row, rec.name, rec.time)
    && HoldsState(row, rec.(startDate := row.startDate, currentAlertTime := row.currentAlertTime))
    && (row.startDate != "" ==> rec.startDate == row.startDate)
    && (row.currentAlertTime != "" ==> rec.currentAlertTime == row.currentAlertTime)
    && (row.startDate == "" ==> rec.startDate == today)
    && (row.currentAlertTime == "" ==> rec.currentAlertTime == row.time)
  }

  /**
   * `load_medicines_from_db` for one row: the INTEGER columns printed back
   * with `str()`, an empty start date replaced by `today`, an empty alert
   * time replaced by the scheduled time.
   */
  function RecordOf(row: Row, today: string): (rec: Record)
    ensures ReadBack(row, rec, today)
  {
    ParseShowRoundTrip(row.days);
    ParseShowRoundTrip(row.hours);
    Record(
      Some(row.id), row.name, row.time, row.grams, ShowInt(row.days), ShowInt(row.hours),
      row.totalDoses, row.takenDoses, row.completed,
      if row.startDate == "" then today else row.startDate,
      if row.currentAlertTime == "" then row.time else row.currentAlertTime,
      row.lastNotificationTime)
  }

  /**
   * `load_medicines_from_db`: one record per row, read back from it, in
   * `ORDER BY id DESC` order.
   */
  function Load(t: Table, today: string): (meds: seq<Record>)
    ensures |meds| == |t.rows|
    ensures forall i :: 0 <= i < |meds| ==> ReadBack(t.rows[|t.rows| - 1 - i], meds[i], today)
    ensures Valid(t) ==> forall i, j :: 0 <= i < j < |meds| ==>
      meds[i].id.Some? && meds[j].id.Some? && meds[i].id.value > meds[j].id.value
  {
    LoadReadsBack(t, today);
    LoadDescends(t, Listing(t, today), today);
    Listing(t, today)
  }

  /** The rows read back, last row first. */
  function Listing(t: Table, today: string): seq<Record> {
    seq(|t.rows|, i requires 0 <= i < |t.rows| => RecordOf(t.rows[|t.rows| - 1 - i], today))
  }

  /** Each record of the listing is read back from its row. */
  lemma LoadReadsBack(t: Table, today: string)
    ensures |Listing(t, today)| == |t.rows|
    ensures forall i :: 0 <= i < |t.rows| ==> ReadBack(t.rows[|t.rows| - 1 - i], Listing(t, today)[i], today)
  {
    var meds := Listing(t, today);
    forall i | 0 <= i < |meds| ensures ReadBack(t.rows[|t.rows| - 1 - i], meds[i], today) {
      assert meds[i] == RecordOf(t.rows[|t.rows| - 1 - i], today);
    }
  }

  /** Listing rows in reverse puts the ids of a valid table in descending order. */
  lemma LoadDescends(t: Table, meds: seq<Record>, today: string)
    requires |meds| == |t.rows|
    requires forall i :: 0 <= i < |meds| ==> ReadBack(t.rows[|t.rows| - 1 - i], meds[i], today)
    ensures Valid(t) ==> forall i, j :: 0 <= i < j < |meds| ==>
      meds[i].id.Some? && meds[j].id.Some? && meds[i].id.value > meds[j].id.value
  {
    if Valid(t) {
      var n := |t.rows|;
      forall i, j | 0 <= i < j < n
        ensures meds[i].id.Some? && meds[j].id.Some? && meds[i].id.value > meds[j].id.value
      {
        assert ReadBack(t.rows[n - 1 - i], meds[i], today) && ReadBack(t.rows[n - 1 - j], meds[j], today);
        assert n - 1 - j < n - 1 - i;
      }
    }
  }

  /** The table stores a record: some row carries its id and its (name, time). */
  predicate Stored(t: Table, rec: Record) {
    rec.id.Some? && exists j :: 0 <= j < |t.rows| && t.rows[j].id == rec.id.value && HasKey(t.rows[j], rec.name, rec.time)
  }

  /** The table stores the record and every row with its id holds the record's state. */
  predicate Persisted(t: Table, rec: Record) {
    && Stored(t, rec)
    && forall j :: 0 <= j < |t.rows| && t.rows[j].id == rec.id.value ==> HoldsState(t.rows[j], rec)
  }

  /** Whether a record is stored depends only on its id and its key. */
  lemma StoredSameKey(t: Table, a: Record, b: Record)
    requires Stored(t, a) && a.id == b.id && a.name == b.name && a.time == b.time
    ensures Stored(t, b)
  {
    var j :| 0 <= j < |t.rows| && t.rows[j].id == a.id.value && HasKey(t.rows[j], a.name, a.time);
    assert t.rows[j].id == b.id.value && HasKey(t.rows[j], b.name, b.time);
  }

  /** An update never loses a stored record: ids and keys stay where they are. */
  lemma UpdateKeepsStored(t: Table, rec: Record, r: Record)
    requires Update(t, rec).Success?
    ensures Stored(t, r) ==> Stored(Update(t, rec).value, r)
  {
    if Stored(t, r) {
      var j :| 0 <= j < |t.rows| && t.rows[j].id == r.id.value && HasKey(t.rows[j], r.name, r.time);
      var t' := Update(t, rec).value;
      assert t'.rows[j].id == r.id.value && HasKey(t'.rows[j], r.name, r.time);
    }
  }

  /** An insertion never loses a stored record: the old rows stay in front. */
  lemma InsertKeepsStored(t: Table, rec: Record, r: Record)
    requires Insert(t, rec).Success?
    ensures Stored(t, r) ==> Stored(Insert(t, rec).value.0, r)
  {
    if Stored(t, r) {
      var j :| 0 <= j < |t.rows| && t.rows[j].id == r.id.value && HasKey(t.rows[j], r.name, r.time);
      var t' := Insert(t, rec).value.0;
      assert t'.rows[j] == t.rows[j];
    }
  }

  /**
   * A row appended to a valid table under the next id, holding the record,
   * is the only row with that id: the record is persisted.
   */
  lemma AppendedRowPersists(t0: Table, t: Table, rec: Record)
    requires Valid(t0) && |t.rows| == |t0.rows| + 1 && t.rows[..|t0.rows|] == t0.rows
    requires rec.id == Some(t0.nextId) && t.rows[|t0.rows|].id == t0.nextId && Holds(t.rows[|t0.rows|], rec)
    ensures Persisted(t, rec)
  {
    var n := |t0.rows|;
    assert forall j :: 0 <= j < n ==> t.rows[j] == t0.rows[j];
    forall j | 0 <= j < |t.rows| && t.rows[j].id == rec.id.value ensures HoldsState(t.rows[j], rec) {
      assert j == n;
    }
  }

  /** A number text is canonical when `str(int(s)) == s`: no sign, no leading zero. */
  predicate Canonical(s: string) {
    ParseInt(s).Some? && ShowInt(ParseInt(s).value) == s
  }

  /**
   * A record saved under a new (name, time), with canonical numbers, a start
   * date and an alert time, is listed first on the next load, and exactly as
   * it was saved, now carrying its id.
   */
  lemma InsertThenLoad(t: Table, rec: Record, today: string)
    requires Canonical(rec.days) && Canonical(rec.hours) && Bindable(rec)
    requires rec.startDate != "" && rec.currentAlertTime != ""
    requires KeyIndex(t.rows, rec.name, rec.time).None?
    ensures Insert(t, rec).Success?
    ensures var (t', id) := Insert(t, rec).value;
      Load(t', today)[0] == rec.(id := Some(id))
  {
    var (t', id) := Insert(t, rec).value;
    var row := t'.rows[|t.rows|];
    assert Load(t', today)[0] == RecordOf(row, today);
  }

  /** `int(str(n)) == n` makes every loaded number canonical. */
  lemma LoadedNumbersCanonical(t: Table, today: string, i: nat)
    requires i < |t.rows|
    ensures Canonical(Load(t, today)[i].days) && Canonical(Load(t, today)[i].hours)
  {
    var row := t.rows[|t.rows| - 1 - i];
    assert Load(t, today)[i] == RecordOf(row, today);
    ParseShowRoundTrip(row.days);
    ParseShowRoundTrip(row.hours);
  }
}

=== FILE: text.dfy ===
/**
 * The small part of Python's string and integer handling that the scheduler
 * relies on: `str.strip`, `int(str)`, `str(int)`, `f"{n:02d}"` and
 * `str.split(sep)`.
 */
module Text {
  import opened Wrappers

  /** Python's `str.isspace()` for a single character. */
  predicate IsSpace(c: char) {
    || c == ' '
    || ('\t' <= c <= '\r')
    || ('\U{1c}' <= c <= '\U{1f}')
    || c == '\U{85}' || c == '\U{a0}' || c == '\U{1680}'
    || ('\U{2000}' <= c <= '\U{200a}')
    || c == '\U{2028}' || c == '\U{2029}' || c == '\U{202f}' || c == '\U{205f}'
    || c == '\U{3000}'
  }

  predicate AllSpace(s: string) {
    forall k :: 0 <= k < |s| ==> IsSpace(s[k])
  }

  /** The number of whitespace characters `s` starts with. */
  function LeadingSpaces(s: string): (n: nat)
    ensures n <= |s|
    ensures forall k :: 0 <= k < n ==> IsSpace(s[k])
    ensures n < |s| ==> !IsSpace(s[n])
    decreases |s|
  {
    if s != [] && IsSpace(s[0]) then 1 + LeadingSpaces(s[1..]) else 0
  }

  /** The number of whitespace characters `s` ends with. */
  function TrailingSpaces(s: string): (n: nat)
    ensures n <= |s|
    ensures forall k :: |s| - n <= k < |s| ==> IsSpace(s[k])
    ensures n < |s| ==> !IsSpace(s[|s| - n - 1])
    decreases |s|
  {
    if s != [] && IsSpace(s[|s| - 1]) then 1 + TrailingSpaces(s[..|s| - 1]) else 0
  }

  /** Python's `str.strip()` with no argument. */
  function Strip(s: string): (r: string)
    ensures r == [] <==> AllSpace(s)
    ensures r != [] ==> !IsSpace(r[0]) && !IsSpace(r[|r| - 1])
    ensures s != [] && !IsSpace(s[0]) && !IsSpace(s[|s| - 1]) ==> r == s
  {
    var l := s[LeadingSpaces(s)..];
    l[..|l| - TrailingSpaces(l)]
  }

  /**
   * `strip()` removes whitespace from the two ends and nothing else: the
   * text is its whitespace prefix, the stripped text, and its whitespace
   * suffix. With the ends of the result not whitespace, this fixes it.
   */
  lemma StripTrims(s: string)
    ensures exists a, b :: s == a + Strip(s) + b && AllSpace(a) && AllSpace(b)
  {
    var n := LeadingSpaces(s);
    var l := s[n..];
    var m := |l| - TrailingSpaces(l);
    assert s == s[..n] + Strip(s) + l[m..];
    assert AllSpace(s[..n]) && AllSpace(l[m..]);
  }

  predicate IsDigit(c: char) {
    '0' <= c <= '9'
  }

  predicate AllDigits(s: string) {
    forall k :: 0 <= k < |s| ==> IsDigit(s[k])
  }

  function DigitValue(c: char): (v: nat)
    requires IsDigit(c)
    ensures v < 10
  {
    c as int - '0' as int
  }

  function DigitChar(v: nat): (c: char)
    requires v < 10
    ensures IsDigit(c) && DigitValue(c) == v
  {
    ('0' as int + v) as char
  }

  /** The value of a string of decimal digits, most significant first. */
  function DigitsValue(ds: string): nat
    requires AllDigits(ds)
    decreases |ds|
  {
    if ds == [] then 0
    else DigitsValue(ds[..|ds| - 1]) * 10 + DigitValue(ds[|ds| - 1])
  }

  /**
   * Python's `int(s)` on a string: an optional sign followed by decimal digits
   * (leading zeros allowed). `None` stands for the `ValueError` it raises.
   */
  function ParseInt(s: string): Option<int> {
    if |s| > 1 && (s[0] == '-' || s[0] == '+') && AllDigits(s[1..]) then
      var v: int := DigitsValue(s[1..]);
      Some(if s[0] == '-' then -v else v)
    else if |s| > 0 && AllDigits(s) then
      Some(DigitsValue(s))
    else
      None
  }

  /** The decimal digits of `n` without leading zeros, as Python's `str(n)` writes them. */
  function NatDigits(n: nat): (ds: string)
    ensures |ds| >= 1 && AllDigits(ds)
    ensures ds[0] == '0' ==> n == 0
    decreases n
  {
    if n < 10 then [DigitChar(n)] else NatDigits(n / 10) + [DigitChar(n % 10)]
  }

  /** Python's `str(n)` for an integer. */
  function ShowInt(n: int): string {
    if n < 0 then "-" + NatDigits(-n) else NatDigits(n)
  }

  lemma {:induction false} NatDigitsValue(n: nat)
    ensures DigitsValue(NatDigits(n)) == n
    decreases n
  {
    if n >= 10 {
      var ds := NatDigits(n);
      assert ds[..|ds| - 1] == NatDigits(n / 10);
      NatDigitsValue(n / 10);
    }
  }

  /** Printing a non-negative integer and reading it back is the identity. */
  lemma ShowNatRoundTrip(n: nat)
    ensures ParseInt(ShowInt(n)) == Some(n)
  {
    var ds := NatDigits(n);
    NatDigitsValue(n);
    assert ShowInt(n) == ds && IsDigit(ds[0]);
  }

  /** Printing a negative integer and reading it back is the identity. */
  lemma ShowNegativeRoundTrip(n: int)
    requires n < 0
    ensures ParseInt(ShowInt(n)) == Some(n)
  {
    var ds := NatDigits(-n);
    NatDigitsValue(-n);
    var s := "-" + ds;
    assert ShowInt(n) == s;
    assert s[0] == '-' && s[1..] == ds;
    var v: int := DigitsValue(ds);
    assert v == -n;
    assert ParseInt(s) == Some(-v);
  }

  /** `int(str(n)) == n`: printing an integer and reading it back is the identity. */
  lemma ParseShowRoundTrip(n: int)
    ensures ParseInt(ShowInt(n)) == Some(n)
  {
    if n < 0 {
      ShowNegativeRoundTrip(n);
    } else {
      ShowNatRoundTrip(n);
    }
  }

  /** The two digits of `n` for `0 <= n < 100`, tens first. */
  function TwoDigits(n: nat): (ds: string)
    requires n < 100
    ensures |ds| == 2
  {
    [DigitChar(n / 10), DigitChar(n % 10)]
  }

  /** The two digits read back as a number are `n`. */
  lemma TwoDigitsValue(n: nat)
    requires n < 100
    ensures AllDigits(TwoDigits(n)) && DigitsValue(TwoDigits(n)) == n
  {
    var ds := TwoDigits(n);
    assert ds[..1] == [DigitChar(n / 10)] && ds[..1][..0] == [];
    assert DigitsValue(ds[..1]) == n / 10;
  }

  /**
   * Python's `f"{n:02d}"`: zero-padded to width two, where the sign counts
   * towards the width, so a negative number is never padded.
   */
  function Pad02(n: int): string {
    if 0 <= n < 10 then "0" + [DigitChar(n)] else ShowInt(n)
  }

  /** `int(f"{n:02d}") == n`: the padding never changes the value read back. */
  lemma Pad02RoundTrip(n: int)
    ensures ParseInt(Pad02(n)) == Some(n)
  {
    if 0 <= n < 10 {
      var r := Pad02(n);
      assert r[..1] == "0" && r[..1][..0] == [];
      assert DigitsValue(r[..1]) == 0;
      assert DigitsValue(r) == n;
    } else {
      ParseShowRoundTrip(n);
    }
  }

  /** For `0 <= n < 100` the padded text is exactly the two digits of `n`. */
  lemma Pad02IsTwoDigits(n: int)
    requires 0 <= n < 100
    ensures Pad02(n) == TwoDigits(n)
  {
    if n >= 10 {
      assert NatDigits(n / 10) == [DigitChar(n / 10)];
      assert ShowInt(n) == NatDigits(n / 10) + [DigitChar(n % 10)];
    }
  }

  /** Position of the first `c` in `s`. */
  function IndexOf(s: string, c: char): (i: nat)
    requires c in s
    ensures i < |s| && s[i] == c && c !in s[..i]
  {
    if s[0] == c then 0 else IndexOf(s[1..], c) + 1
  }

  /** The inverse of `Split`: the pieces glued back together with `sep`. */
  function Join(parts: seq<string>, sep: char): string
    requires |parts| >= 1
  {
    if |parts| == 1 then parts[0] else parts[0] + [sep] + Join(parts[1..], sep)
  }

  /** Python's `s.split(sep)` for a one-character separator. */
  function Split(s: string, sep: char): (parts: seq<string>)
    ensures |parts| >= 1
    ensures Join(parts, sep) == s
    ensures forall k :: 0 <= k < |parts| ==> sep !in parts[k]
    decreases |s|
  {
    if sep !in s then [s]
    else
      var i := IndexOf(s, sep);
      var rest := Split(s[i + 1..], sep);
      assert s == s[..i] + [sep] + s[i + 1..];
      [s[..i]] + rest
  }
}

=== FILE: time_of_day.dfy ===
/**
 * Times of day as the scheduler reads and writes them: parsed with
 * `datetime.strptime(s, "%H:%M")`, written with `strftime("%H:%M")`, and
 * moved forward by the five-minute snooze step with wrap-around at midnight.
 */
module TimeOfDay {
  import opened Wrappers
  import opened Text

  const MinutesPerDay: int := 1440
  const SnoozeMinutes: int := 5

  /** A time of day at minute resolution: minutes since midnight. */
  type Minute = m: int | 0 <= m < 1440

  /** The hour part of a minute of day. */
  function HourOf(m: Minute): int { m / 60 }

  /** The minute-of-hour part of a minute of day. */
  function MinuteOf(m: Minute): int { m % 60 }

  /** A minute of day is its hour and its minute-of-hour put back together. */
  lemma HourMinuteOf(h: int, mi: int)
    requires 0 <= h < 24 && 0 <= mi < 60
    ensures 0 <= h * 60 + mi < MinutesPerDay
    ensures HourOf(h * 60 + mi) == h && MinuteOf(h * 60 + mi) == mi
  {
  }

  /** `t` is a way a `%H` or `%M` field may write `n`: two digits, or one when `n < 10`. */
  predicate Writes(t: string, n: nat)
    requires n < 100
  {
    t == TwoDigits(n) || (n < 10 && t == [DigitChar(n)])
  }

  /**
   * Reference description of the accepted texts: `s` writes the time `m` as an
   * hour field, a colon and a minute field, each in one of its writings.
   */
  ghost predicate Spells(s: string, m: Minute) {
    exists ht, mt :: Writes(ht, HourOf(m)) && Writes(mt, MinuteOf(m)) && s == ht + ":" + mt
  }

  /** strptime's `%H` pattern `2[0-3]|[0-1]\d|\d` matched against a whole field. */
  function HourField(t: string): Option<int> {
    if |t| == 1 && IsDigit(t[0]) then Some(DigitValue(t[0]))
    else if |t| == 2 && IsDigit(t[1]) && (t[0] == '0' || t[0] == '1' || (t[0] == '2' && t[1] <= '3')) then
      Some(DigitValue(t[0]) * 10 + DigitValue(t[1]))
    else None
  }

  /** strptime's `%M` pattern `[0-5]\d|\d` matched against a whole field. */
  function MinuteField(t: string): Option<int> {
    if |t| == 1 && IsDigit(t[0]) then Some(DigitValue(t[0]))
    else if |t| == 2 && '0' <= t[0] <= '5' && IsDigit(t[1]) then
      Some(DigitValue(t[0]) * 10 + DigitValue(t[1]))
    else None
  }

  lemma DigitCharValue(c: char)
    requires IsDigit(c)
    ensures DigitChar(DigitValue(c)) == c
  {
  }

  /** A field the patterns accept is one of the writings of its value. */
  lemma FieldWritten(t: string, v: int)
    requires HourField(t) == Some(v) || MinuteField(t) == Some(v)
    ensures 0 <= v < 60 && Writes(t, v)
    ensures HourField(t) == Some(v) ==> v < 24
  {
    DigitCharValue(t[0]);
    if |t| == 2 {
      DigitCharValue(t[1]);
      assert t == TwoDigits(v);
    } else {
      assert t == [DigitChar(v)];
    }
  }

  /** Every writing of an hour or a minute is accepted by its pattern and read as its value. */
  lemma FieldReads(t: string, n: nat)
    requires n < 60 && Writes(t, n)
    ensures n < 24 ==> HourField(t) == Some(n)
    ensures MinuteField(t) == Some(n)
  {
    if t == TwoDigits(n) {
      assert t[0] == DigitChar(n / 10) && t[1] == DigitChar(n % 10);
    }
  }

  /**
   * `datetime.strptime(s, "%H:%M")` reduced to the time of day it yields;
   * `None` is the `ValueError` for a text that does not match or leaves
   * unconverted characters.
   */
  function ParseTime(s: string): Option<Minute> {
    var colon := if |s| >= 2 && s[1] == ':' then 1 else 2;
    if |s| > colon && s[colon] == ':' then
      match (HourField(s[..colon]), MinuteField(s[colon + 1..]))
      case (Some(h), Some(mi)) => Some(h * 60 + mi)
      case _ => None
    else None
  }

  /** An accepted hour field, a colon and an accepted minute field spell the time they are read as. */
  lemma JoinedSpells(ht: string, mt: string, h: int, mi: int)
    requires HourField(ht) == Some(h) && MinuteField(mt) == Some(mi)
    ensures 0 <= h * 60 + mi < MinutesPerDay && Spells(ht + ":" + mt, h * 60 + mi)
  {
    FieldWritten(ht, h);
    FieldWritten(mt, mi);
    HourMinuteOf(h, mi);
    var m: Minute := h * 60 + mi;
    assert Writes(ht, HourOf(m)) && Writes(mt, MinuteOf(m));
  }

  /** Every text strptime accepts spells the time it is parsed to. */
  lemma ParseTimeSound(s: string)
    ensures ParseTime(s).Some? ==> Spells(s, ParseTime(s).value)
  {
    if ParseTime(s).Some? {
      var colon := if |s| >= 2 && s[1] == ':' then 1 else 2;
      var ht, mt := s[..colon], s[colon + 1..];
      assert s == ht + ":" + mt;
      JoinedSpells(ht, mt, HourField(ht).value, MinuteField(mt).value);
    }
  }

  /** An hour writing, a colon and a minute writing parse to the time they write. */
  lemma ParseJoined(ht: string, mt: string, m: Minute)
    requires Writes(ht, HourOf(m)) && Writes(mt, MinuteOf(m))
    ensures ParseTime(ht + ":" + mt) == Some(m)
  {
    var s := ht + ":" + mt;
    FieldReads(ht, HourOf(m));
    FieldReads(mt, MinuteOf(m));
    assert s[|ht|] == ':' && s[..|ht|] == ht && s[|ht| + 1..] == mt;
    if |ht| == 2 {
      assert s[1] == ht[1] && IsDigit(ht[1]);
    }
  }

  /** Every text the reference description admits is parsed to the time it spells. */
  lemma ParseTimeComplete(s: string, m: Minute)
    requires Spells(s, m)
    ensures ParseTime(s) == Some(m)
  {
    var ht, mt :| Writes(ht, HourOf(m)) && Writes(mt, MinuteOf(m)) && s == ht + ":" + mt;
    ParseJoined(ht, mt, m);
  }

  /** `is_valid_time_format`: whether strptime accepts the text. */
  predicate IsValidTimeFormat(s: string) {
    ParseTime(s).Some?
  }

  /** A text is a valid time exactly when it spells some time of day. */
  lemma ValidTimeFormatIff(s: string)
    ensures IsValidTimeFormat(s) <==> exists m: Minute :: Spells(s, m)
  {
    ParseTimeSound(s);
    if exists m: Minute :: Spells(s, m) {
      var m: Minute :| Spells(s, m);
      ParseTimeComplete(s, m);
    }
  }

  /** `strftime("%H:%M")`: both fields zero-padded to two digits. */
  function FormatTime(m: Minute): (s: string)
    ensures |s| == 5 && s[2] == ':'
  {
    TwoDigits(HourOf(m)) + ":" + TwoDigits(MinuteOf(m))
  }

  /** What strftime writes, strptime reads back: formatting then parsing is the identity. */
  lemma FormatParseRoundTrip(m: Minute)
    ensures ParseTime(FormatTime(m)) == Some(m)
  {
    ParseJoined(TwoDigits(HourOf(m)), TwoDigits(MinuteOf(m)), m);
  }

  /** Formatting is injective: two different minutes never print alike. */
  lemma FormatTimeInjective(m1: Minute, m2: Minute)
    requires FormatTime(m1) == FormatTime(m2)
    ensures m1 == m2
  {
    FormatParseRoundTrip(m1);
    FormatParseRoundTrip(m2);
  }

  /**
   * A valid time text is the canonical `strftime` writing of its value
   * exactly when it has all five characters, so "8:00" and "08:5" are
   * accepted but never printed.
   */
  lemma CanonicalIffFiveChars(s: string, m: Minute)
    requires ParseTime(s) == Some(m)
    ensures s == FormatTime(m) <==> |s| == 5
  {
    ParseTimeSound(s);
    var ht, mt :| Writes(ht, HourOf(m)) && Writes(mt, MinuteOf(m)) && s == ht + ":" + mt;
    if |s| == 5 {
      assert |ht| == 2 && |mt| == 2;
      assert ht == TwoDigits(HourOf(m)) && mt == TwoDigits(MinuteOf(m));
    }
  }

  /** The minute of day `k` minutes after `m`, wrapping past midnight. */
  function AddMinutes(m: Minute, k: nat): Minute {
    (m + k) % MinutesPerDay
  }

  /**
   * The new alert text of a snooze: the old one parsed with strptime, moved
   * five minutes on, and written with strftime. `None` is the `ValueError`
   * strptime raises on a text it does not accept.
   */
  function SnoozedAlert(alert: string): (r: Option<string>)
    ensures r.Some? <==> IsValidTimeFormat(alert)
    ensures r.Some? ==> |r.value| == 5 && ParseTime(r.value) == Some(AddMinutes(ParseTime(alert).value, SnoozeMinutes))
  {
    match ParseTime(alert)
    case Some(m) =>
      FormatParseRoundTrip(AddMinutes(m, SnoozeMinutes));
      Some(FormatTime(AddMinutes(m, SnoozeMinutes)))
    case None => None
  }

  /** The accepted and refused examples of `is_valid_time_format`'s unit tests. */
  lemma ValidTimeExamples()
    ensures IsValidTimeFormat("08:00") && IsValidTimeFormat("23:59") && IsValidTimeFormat("00:00")
  {
    assert "08:00"[..2] == "08" && "08:00"[3..] == "00";
    assert "23:59"[..2] == "23" && "23:59"[3..] == "59";
    assert "00:00"[..2] == "00" && "00:00"[3..] == "00";
  }

  lemma OneDigitHourExample()
    ensures ParseTime("8:00") == Some(480)
  {
    assert "8:00"[..1] == "8" && "8:00"[2..] == "00";
  }

  lemma InvalidTimeExamples()
    ensures !IsValidTimeFormat("25:00") && !IsValidTimeFormat("08:60")
    ensures !IsValidTimeFormat("08-30") && !IsValidTimeFormat("abc")
  {
    assert "25:00"[..2] == "25";
    assert "08:60"[3..] == "60";
  }

  /** Snoozing the last minutes before midnight wraps to the next day. */
  lemma SnoozeWrapExample()
    ensures SnoozedAlert("23:58") == Some("00:03")
  {
    assert "23:58"[..2] == "23" && "23:58"[3..] == "58";
    assert ParseTime("23:58") == Some(1438);
    assert AddMinutes(1438, SnoozeMinutes) == 3;
    assert DigitChar(0) == '0' && DigitChar(3) == '3';
    assert TwoDigits(0) == "00" && TwoDigits(3) == "03";
    assert FormatTime(3) == TwoDigits(0) + ":" + TwoDigits(3);
    assert FormatTime(3) == "00:03";
    assert SnoozedAlert("23:58") == Some(FormatTime(3));
  }
}

=== FILE: wrappers.dfy ===
/** Option and Result, the two failure-carrying shapes the model needs. */
module Wrappers {

  /** A value that may be missing, like Python's `None`. */
  datatype Option<+T> = None | Some(value: T)

  /** The outcome of an operation that either succeeds or raises. */
  datatype Result<+T, +E> = Success(value: T) | Failure(error: E)
}
